=== FILE: README.md ===
# Soccer lineup editor: roster, formations and vote aggregation

This project models the lineup editor and its voting service in Dafny.

The editor is a browser app. It keeps a team: players, pitch settings and club details. Players are placed on a pitch using formation tables and can be dragged. They are edited in a form and shown as tokens, roster rows and a player card. Each player can be rated through a public voting page.

The service stores one team document. It answers reads and wholesale saves of it, looks up a player, and records votes. Recording a vote recomputes the player's stats as the rounded mean of all its votes.

Every operation is a pure function:
- The roster store maps the current team to the next one.
- The server maps the stored document, an `Option<Team>`, to a reply and the next document.
- A page component maps its state and an event to its next state, or a state to what it shows.

Modules:
- `Wrappers`: `Option` and `Result`.
- `JsObject`: objects as key/value lists in insertion order. Lookup, `o[k] = v`, keys and values behave as Python dicts do, and as JavaScript objects do for keys that are not integer-like.
- `Rounding`: `Math.round(s / n)` (a half rounds up) and Python's `round(s / n)` (a half rounds to even). Both are integer functions, each characterised by an inequality.
- `Text`: `split` and `join` on a separator, and decimal digits.
- `Formations`: the 11-a-side and 7-a-side formation tables.
- `Roster`: players, partial player records, settings, the team, and the overall rating.
- `TeamContext`: the editor's roster store.
- `Server`: the persistence service. This includes how the `Stats` model reads and writes the defence stat: `def` on the wire, field `def_` when stored.
- `Pitch`: drag, background, tokens. `PlayerForm`: the player dialog's form. `VotingPage`: the voting page. `PlayerCard`: the card dialog. `Home`: the main page's dialogs, roster list, class joiner, export file name and vote link.

Two facts of the code shape the model:
- Both rating sliders, in the player form and on the voting page, run from 1 to 99.
- For a player without stats, the card divides by zero, while the roster list shows 75 and the pitch computes 75 for the overall it passes to the player's token (the token does not display it). The model keeps both behaviours apart (see "## Findings").

## Model

| member | source | states |
|---|---|---|
| JsObject.Get | frontend/src/components/VotingPage.js:28-36 | a lookup succeeds exactly for the object's keys and yields a value stored under the key |
| JsObject.Set | frontend/src/components/PlayerForm.js:59 | `{...o, [k]: v}`: `k` then reads `v`, every other key reads as before, and the key list grows only when `k` was absent |
| JsObject.SetDistinct | frontend/src/components/PlayerForm.js:59 | setting a key never duplicates a key |
| JsObject.FromKeys | frontend/src/components/VotingPage.js:27-37 | an object literal built key by key has exactly those keys in that order, each with its value |
| Rounding.RoundHalfUp | frontend/src/context/TeamContext.js:123 | `Math.round(s/n)` is the integer r with 2nr - n <= 2s < 2nr + n |
| Rounding.RoundHalfEven | backend/server.py:147 | `round(s/n)` is within a half of s/n, and on an exact half it is even |
| Rounding.RoundHalfUpUnique | frontend/src/context/TeamContext.js:123 | any integer within the half-up bounds is the half-up rounding |
| Rounding.RoundingsAgreeOffTies | backend/server.py:147 | away from exact halves the browser's and the server's rounding agree |
| Rounding.RoundingsDifferOnTies | backend/server.py:147 | on an exact half they differ: 5/2 gives 3 in the browser and 2 on the server |
| Rounding.RoundHalfUpBetween | frontend/src/context/TeamContext.js:122-123 | a half-up mean of a total within [n·lo, n·hi] lies in [lo, hi] |
| Rounding.RoundHalfEvenBetween | backend/server.py:146-147 | the same for the half-to-even mean |
| Rounding.MeanBetween | frontend/src/components/Pitch.js:221-225 | the rounded mean of a non-empty list lies between any bounds of its elements |
| Text.SplitJoin | frontend/src/pages/Home.js:286-288 | splitting a join on its separator gives the pieces back when no piece holds the separator |
| Text.JoinAppend | frontend/src/pages/Home.js:287 | joining two lists is joining each with one separator between them, the separator left out when either side is empty |
| Formations.Lookup | frontend/src/context/TeamContext.js:63-64 | `formations[name]` is absent exactly when no formation has the name, else the slots of a formation with that name |
| Formations.TableFor | frontend/src/context/TeamContext.js:63 | mode '11' selects the 11-a-side table and any other mode the 7-a-side one; every formation offered is well formed for the mode's team size |
| Formations.LinesInOrderPairwise | frontend/src/lib/formations.js:2-64 | in an ordered layout, no later slot is on a line nearer the own goal than an earlier one |
| Formations.Formations11WellFormed | frontend/src/lib/formations.js:1-33 | every 11-a-side layout has 11 slots, the keeper first at (50, 88), lines in order GK, DEF, MID, FWD, all coordinates in [0, 100], and a name whose numbers plus one give 11 |
| Formations.Formations7WellFormed | frontend/src/lib/formations.js:35-65 | every 7-a-side layout has 7 slots under the same rules |
| Formations.Formation4231WellFormed | frontend/src/lib/formations.js:14-20 | "4-2-3-1" is a well-formed 11-a-side layout |
| Formations.TableNames | frontend/src/lib/formations.js:1-65 | the tables share no name and repeat none; the default "4-3-3" is an 11-a-side formation and not a 7-a-side one |
| Roster.MergeNothing | frontend/src/context/TeamContext.js:103 | merging an empty partial record changes nothing |
| Roster.MergeWhole | frontend/src/context/TeamContext.js:103 | merging a whole record over any player yields that record |
| Roster.MergeTwice | frontend/src/context/TeamContext.js:103 | merging the same partial record twice equals merging it once |
| Roster.RatingTotalBounds | backend/server.py:146 | when every vote rates a key within [lo, hi], the total over n votes lies in [n·lo, n·hi] |
| Roster.Overall | frontend/src/components/Pitch.js:221-225 | the overall is 75 without stats, otherwise the half-up rounding of the stats' mean |
| Roster.OverallWithin | frontend/src/pages/Home.js:234-236 | the overall of stats within [lo, hi] lies in [lo, hi] |
| Roster.DisplayName | frontend/src/components/Pitch.js:141 | the name shown is the nickname when it is non-empty, else the name |
| TeamContext.Relayout | frontend/src/context/TeamContext.js:68-73 | player i takes slot i while slots last; only positions change, later players are untouched, and the count is kept |
| TeamContext.CurrentLayout | frontend/src/context/TeamContext.js:81-82 | the current layout is empty exactly when the formation is not in the mode's table; otherwise it is the slot list of the table's formation named by the current formation setting, with one slot per player of a full team, the keeper's first |
| TeamContext.ApplyFormation | frontend/src/context/TeamContext.js:62-77 | an unknown name changes nothing; a known one moves the first players to its slots, keeps count, order and every other field, and records the name as the formation |
| TeamContext.ApplyFormationTwice | frontend/src/context/TeamContext.js:62-77 | applying a formation twice equals applying it once |
| TeamContext.ApplyFormationPlacesOnPitch | frontend/src/context/TeamContext.js:68-73 | every player placed by a table formation stands in [0, 100] on both axes, the first at the keeper's (50, 88) |
| TeamContext.AddPlayer | frontend/src/context/TeamContext.js:79-100 | appends one player after the unchanged roster: its id is the data's or the fresh one, its fields come from the data, it stands on the next free slot or at (50, 50), and it has no votes |
| TeamContext.UpdateWhere | frontend/src/context/TeamContext.js:103 | mapping by id changes exactly the players with that id and keeps the length |
| TeamContext.UpdatePlayer | frontend/src/context/TeamContext.js:102-104 | the data is merged over exactly the players with the id; the others, the length, the settings and the club are unchanged |
| TeamContext.UpdatePlayerPosition | frontend/src/context/TeamContext.js:106-108 | exactly the players with the id move to the position, with every other field kept |
| TeamContext.MoveIsUpdate | frontend/src/context/TeamContext.js:102-108 | moving a player is updating it with a position-only record |
| TeamContext.UpdateMissing | frontend/src/context/TeamContext.js:102-104 | updating an id nobody has changes nothing |
| TeamContext.UpdateTwice | frontend/src/context/TeamContext.js:102-104 | repeating an update that keeps the id changes nothing more |
| TeamContext.DeletePlayer | frontend/src/context/TeamContext.js:110-112 | no player with the id remains, and every other player does |
| TeamContext.WithoutSpec | frontend/src/context/TeamContext.js:111 | the filter keeps exactly the players whose id differs and never grows the list |
| TeamContext.WithoutConcat | frontend/src/context/TeamContext.js:111 | filtering distributes over concatenation, so survivors keep their relative order |
| TeamContext.WithoutMissing | frontend/src/context/TeamContext.js:111 | deleting an id nobody has changes nothing |
| TeamContext.AddThenDelete | frontend/src/context/TeamContext.js:79-112 | deleting the player just added under a fresh id restores the team |
| TeamContext.DeleteTwice | frontend/src/context/TeamContext.js:110-112 | deleting twice equals deleting once |
| TeamContext.RatingTotalAsWritten | frontend/src/context/TeamContext.js:122 | the vote total as written is NaN exactly when some vote lacks the key |
| TeamContext.AsWrittenTotalIsNaN | frontend/src/context/TeamContext.js:122 | votes [{tir: 60}] then {rit: 80} give a NaN rit total as written, and 80 when missing ratings count 0 |
| TeamContext.AsWrittenAgreesWhenComplete | frontend/src/context/TeamContext.js:122 | when every vote rates the key, the total as written equals the corrected one |
| TeamContext.Averaged | frontend/src/context/TeamContext.js:121-124 | the corrected arithmetic of "## Findings": each listed key becomes the half-up mean over the votes, and every other key reads as before |
| TeamContext.Voted | frontend/src/context/TeamContext.js:116-126 | the corrected arithmetic of "## Findings", a missing rating counting 0: the vote is appended to the player's votes, each stat it rates becomes the half-up mean over all votes, other stats and fields are kept |
| TeamContext.AddVote | frontend/src/context/TeamContext.js:114-130 | built on the corrected `Voted` of "## Findings": only the players with the id take the vote; length, other players, settings and club are unchanged |
| TeamContext.VotedStatWithin | frontend/src/context/TeamContext.js:121-124 | when all votes rate a stat within [lo, hi], the averaged stat lies in [lo, hi] |
| TeamContext.ImportTeam | frontend/src/context/TeamContext.js:132-143 | a malformed file yields false and no change; otherwise true, players and club replaced only when present, settings merged over the current ones |
| TeamContext.ImportSnapshot | frontend/src/context/TeamContext.js:132-143 | importing a file that holds a whole team yields that team, whatever was held before |
| TeamContext.ImportKeepsUnmentionedSettings | frontend/src/context/TeamContext.js:136 | for a file holding only settings, each of the seven settings takes the file's value when the file names it and keeps its current value otherwise; players and club stay |
| Server.ParseStats | backend/server.py:29-40 | each stat reads from its key, 70 when omitted; the defence stat reads from `def`, else from `def_`; an empty body gives all 70 |
| Server.Dump | backend/server.py:140 | a stored vote has exactly the nine stat keys, `def_` among them, each once |
| Server.ParseDump | backend/server.py:29-40 | reading back a stored vote gives the same stats |
| Server.ParseDumpGets | backend/server.py:140 | each stat of a stored vote is found under its stored name, the defence stat under `def_` |
| Server.DumpByAlias | backend/server.py:34 | a response sends exactly the nine vote codes, the defence stat as `def` |
| Server.ParseDumpByAlias | backend/server.py:29-40 | reading back sent stats gives the same stats |
| Server.Stored | backend/server.py:46-55 | a stored player has exactly the nine stored keys and the same stats, every other field unchanged |
| Server.Response | backend/server.py:107-116 | a sent player has exactly the nine vote codes and the same stats, every other field unchanged |
| Server.StoredTeam | backend/server.py:102 | `team.model_dump()`: every player stored as the `Player` model stores it, in order; settings and club unchanged |
| Server.ResponseTeam | backend/server.py:81-86 | the team sent through the `Team` response model: every player sent with wire-named stats, in order; settings and club unchanged |
| Server.ResponseOfStored | backend/server.py:98-116 | sending a stored player is sending the player it was stored from |
| Server.GetTeam | backend/server.py:81-96 | the stored team as sent, or on first use the default team (no players, default settings and club), which is then stored |
| Server.SaveTeam | backend/server.py:98-105 | the team is stored wholesale and sent back |
| Server.SaveThenGet | backend/server.py:81-105 | reading after a save returns what the save returned and stores nothing new |
| Server.GetTwice | backend/server.py:81-96 | a second read returns the same team as the first and leaves the store alone |
| Server.FirstIndex | backend/server.py:129-135 | the index found holds the id and no earlier player does; none is found exactly when no player has the id |
| Server.GetPlayer | backend/server.py:107-118 | 404 "Team not found" without a team, 404 "Player not found" without the id, else the first player with the id as sent |
| Server.Recompute | backend/server.py:143-147 | the stats keep their keys and each becomes the half-to-even mean over the votes, a vote without the key counting 0 |
| Server.VotePlayer | backend/server.py:120-159 | the same two 404s; otherwise exactly the first matching player gets the vote appended and its stats recomputed; the other players, settings and club are unchanged |
| Server.VoteStatWithin | backend/server.py:143-147 | when all votes rate a stat within [lo, hi], the recomputed stat lies in [lo, hi] |
| Server.VoteTargetsLookedUpPlayer | backend/server.py:107-140 | a player the lookup finds can be voted for, and that vote extends the votes of the player the lookup returned |
| Pitch.Clamp | frontend/src/components/Pitch.js:94-95 | the result lies in [0, 100], equals the input inside that range, and is the nearest bound outside |
| Pitch.ClampMonotone | frontend/src/components/Pitch.js:94-95 | clamping keeps the order of two coordinates |
| Pitch.DragTarget | frontend/src/components/Pitch.js:83-95 | the target is the start plus the displacement in percent of the pitch size, clamped to the pitch on each axis |
| Pitch.DragWithoutMoving | frontend/src/components/Pitch.js:84-95 | a pointer that has not moved leaves an on-pitch token in place |
| Pitch.Drag | frontend/src/components/Pitch.js:83-97 | the players with the dragged player's id move to the drag target computed from the drag's start, which is on the pitch; everything else is unchanged |
| Pitch.LatestMoveWins | frontend/src/components/Pitch.js:77-97 | each move is measured from the drag's start, so two moves equal the last one |
| Pitch.PitchBackground | frontend/src/components/Pitch.js:152-159 | the class listed for the colour, the green class for any other colour |
| Pitch.RoleColour | frontend/src/components/Pitch.js:132-134 | the marker listed for GK, DEF or MID, the rose marker for any other role |
| Pitch.RoleColoursDistinct | frontend/src/components/Pitch.js:132-134 | the listed roles get distinct markers, none of them the fallback |
| Pitch.Or | frontend/src/components/Pitch.js:109-110 | the JavaScript or-operator on strings: a when it is non-empty, else b |
| Pitch.TokenOf | frontend/src/components/Pitch.js:109-141 | a token's kit colours are never empty and follow the settings when set; stripes show iff the texture is "striped"; the role marker is the role's colour; the caption is the display name; the overall passed to the token is the player's overall |
| Pitch.EmptyKitShowsDefault | frontend/src/components/Pitch.js:109-110 | empty kit colours show red with white numbers |
| Pitch.TokenOverallOnScale | frontend/src/components/Pitch.js:221-225 | stats on the 1-99 scale give an overall passed to the token on that scale |
| Pitch.Tokens | frontend/src/components/Pitch.js:217-229 | one token per player, in roster order |
| PlayerForm.Uniform | frontend/src/components/PlayerForm.js:17-25 | an object with exactly the given keys, each at the given rating |
| PlayerForm.BlankFormFields | frontend/src/components/PlayerForm.js:11-26 | a new form has empty texts, number "10", role "MID", and exactly the seven stats, each at 70 |
| PlayerForm.Sync | frontend/src/components/PlayerForm.js:28-50 | the form loads the edited player verbatim, so merging it over anything yields that player, or else resets to the blank form |
| PlayerForm.HandleChange | frontend/src/components/PlayerForm.js:52-54 | sets exactly one text field; the other fields are unchanged |
| PlayerForm.LatestChangeWins | frontend/src/components/PlayerForm.js:52-54 | two edits of one field leave the form as the later edit alone would |
| PlayerForm.ChangeUndone | frontend/src/components/PlayerForm.js:52-54 | setting a field back to its former text restores the form |
| PlayerForm.HandleStatChange | frontend/src/components/PlayerForm.js:56-61 | the stat becomes the slider's first value; other stats and every other field are unchanged |
| PlayerForm.BlankFormOnScale | frontend/src/components/PlayerForm.js:177-181 | the blank form's ratings lie on the slider's 1-99 scale |
| PlayerForm.StatChangeKeepsScale | frontend/src/components/PlayerForm.js:177-182 | a slider edit within 1-99 keeps every rating on the scale |
| PlayerForm.Caption | frontend/src/components/PlayerForm.js:174 | a key's label when the table has a non-empty one, else the key itself |
| PlayerForm.UnlabelledShowsKey | frontend/src/components/PlayerForm.js:174 | a key the table does not name is captioned by itself |
| PlayerForm.StatLabel | frontend/src/components/PlayerForm.js:81-89 | the seven stats show their labels; any other key shows itself |
| PlayerForm.VoteKeysUnlabelled | frontend/src/components/PlayerForm.js:171-174 | the nine vote codes show as bare codes in the form |
| VotingPage.Sliders | frontend/src/components/VotingPage.js:27-37 | one slider per code, in order, each at the stored rating when truthy, else 70 |
| VotingPage.StartingVote | frontend/src/components/VotingPage.js:28-36 | the falsy fallback to 70: the stored rating when it is present and non-zero, else 70, so never 0 |
| VotingPage.InitialVotes | frontend/src/components/VotingPage.js:26-37 | after loading, one slider per vote code in code order, each at the code's starting vote, none at 0 |
| VotingPage.InitialVoteOnScale | frontend/src/components/VotingPage.js:26-37 | a stored rating of 0 to 99, or none, puts the slider on the 1-99 scale |
| VotingPage.InitialVotesKeepStored | frontend/src/components/VotingPage.js:26-37 | a stored non-zero rating is where its slider starts |
| VotingPage.SlidersKeepNonZero | frontend/src/components/VotingPage.js:26-37 | sliders over an object's own keys start at its values when none is 0 |
| VotingPage.SlidersStartAtStoredRatings | frontend/src/components/VotingPage.js:23-37 | a player sent by the server without zero ratings starts every slider at its rating, `def` included |
| VotingPage.HandleVoteChange | frontend/src/components/VotingPage.js:51-53 | exactly one vote changes, to the slider's first value |
| VotingPage.SliderKeepsCodes | frontend/src/components/VotingPage.js:51-53 | moving a slider keeps one vote per code |
| VotingPage.VoteChangeKeepsScale | frontend/src/components/VotingPage.js:138-143 | a slider move within 1-99 keeps every vote on the scale |
| VotingPage.SliderCaption | frontend/src/components/VotingPage.js:66-74 | labelled stats show their label; any other key shows itself |
| VotingPage.SlidersShowBareCodes | frontend/src/components/VotingPage.js:132-135 | the page's labels name none of the vote codes, so every slider shows its bare code |
| VotingPage.ViewOf | frontend/src/components/VotingPage.js:76-117 | spinner while loading, then "not found" without a player, then the thanks once submitted, else the sliders |
| VotingPage.Mount | frontend/src/components/VotingPage.js:20-49 | without an id nothing happens; otherwise loading ends, and a found player fills the player and its sliders |
| VotingPage.MountedView | frontend/src/components/VotingPage.js:20-94 | on a vote link the sliders show exactly when the server has that player, else "not found" |
| VotingPage.NoIdKeepsSpinning | frontend/src/components/VotingPage.js:46-48 | without an id the spinner stays |
| VotingPage.Submit | frontend/src/components/VotingPage.js:55-64 | the thanks show and the store changes only when the server accepts the vote, which it does exactly for a stored player |
| VotingPage.SlidersRead | backend/server.py:29-38 | a body with all nine codes is read stat by stat from them, `def` included |
| VotingPage.RecordedVoteIsSliders | frontend/src/components/VotingPage.js:55-57 | with one slider per code, the vote the server stores holds each slider's value under the code's stored name, `def` under `def_` |
| PlayerCard.OverallAsWritten | frontend/src/components/PlayerCard.js:28-29 | the card's overall as written is NaN exactly without stats, and otherwise the player's overall |
| PlayerCard.CardOverallIsNaNWithoutStats | frontend/src/components/PlayerCard.js:28-29 | without stats the card as written shows NaN, where the roster list shows 75 and the pitch computes 75 for its token |
| PlayerCard.CardOverallWithin | frontend/src/components/PlayerCard.js:28-29 | with stats, the card's overall lies between any bounds of the ratings |
| PlayerCard.Abbrev | frontend/src/components/PlayerCard.js:82 | `substring(0, 3)`: a prefix of at most three characters, exactly three when the key has three |
| PlayerCard.DownloadName | frontend/src/components/PlayerCard.js:21 | the player name followed by "_card.png" |
| PlayerCard.DownloadNameInjective | frontend/src/components/PlayerCard.js:21 | two names with the same download name are the same name |
| PlayerCard.Card | frontend/src/components/PlayerCard.js:11-86 | nothing without a player; otherwise the overall, role, display name, portrait when an avatar is set, one abbreviated line per stat in order, and the download name |
| PlayerCard.CardMatchesToken | frontend/src/components/PlayerCard.js:28-75 | the card's overall agrees with the overall passed to the player's pitch token, and the card's title with the token's caption |
| PlayerCard.CardAgreesWithStats | frontend/src/components/PlayerCard.js:28-29 | where the card's overall is defined as written, it is the card's corrected overall |
| PlayerCard.StoredStatsShowVoteCodes | frontend/src/components/PlayerCard.js:80-82 | stored stat names abbreviate to the vote codes, `def_` to `def` |
| PlayerCard.FormStatsAbbreviateDistinctly | frontend/src/components/PlayerCard.js:82 | the seven form stats keep distinct abbreviations |
| Home.PlayerClick | frontend/src/pages/Home.js:38-41 | the card opens on the player, nothing else changes |
| Home.HandleEdit | frontend/src/pages/Home.js:43-47 | the card closes and the form opens loaded with the player as the one being edited |
| Home.OpenNewPlayerForm | frontend/src/pages/Home.js:166 | the form opens blank, editing nobody |
| Home.HandleFormSubmit | frontend/src/pages/Home.js:49-58 | an edit updates the edited player's id, otherwise a player is added; nobody is edited after |
| Home.SubmitForm | frontend/src/components/PlayerForm.js:74-79 | the form's record is submitted, then the form closes and resets blank |
| Home.DeleteFromForm | frontend/src/components/PlayerForm.js:191-198 | offered only while editing: the edited id leaves the roster and the form closes |
| Home.EditUnchangedKeepsRoster | frontend/src/pages/Home.js:43-58 | opening a player in the form and saving unchanged leaves a roster with unique ids as it was |
| Home.UpdateWithItself | frontend/src/context/TeamContext.js:102-104 | merging a player's own whole record over the players with its id changes nothing when ids are unique |
| Home.AddBlankAppendsOne | frontend/src/pages/Home.js:49-58 | saving a blank form appends one player under the fresh id with the seven stats at 70 |
| Home.EditThenDelete | frontend/src/pages/Home.js:266-272 | deleting from the form removes the edited id and keeps every other player |
| Home.RosterList | frontend/src/pages/Home.js:217-258 | one row per player in order, with name, overall, role colour, role, number and portrait; the empty notice iff the roster is empty |
| Home.RosterMatchesPitch | frontend/src/pages/Home.js:234-245 | a roster row's displayed overall agrees with the overall passed to the player's token, and its role colour with the token's role marker |
| Home.Truthy | frontend/src/pages/Home.js:287 | the kept arguments are non-empty and no more than given |
| Home.TruthyMembers | frontend/src/pages/Home.js:287 | an argument is kept iff it is non-empty |
| Home.TruthyAppend | frontend/src/pages/Home.js:287 | filtering keeps order: it distributes over concatenation |
| Home.Cn | frontend/src/pages/Home.js:286-288 | `cn(...classes)` joins the truthy classes with single spaces; the result is empty exactly when every argument is |
| Home.CnSingle | frontend/src/pages/Home.js:286-288 | one class is used as it is, spaces inside it included |
| Home.CnAppend | frontend/src/pages/Home.js:286-288 | `cn` over two argument lists is their class lists joined by one space, an empty side left out; with `Home.CnSingle` this fixes `cn` on every input |
| Home.CnSplit | frontend/src/pages/Home.js:286-288 | splitting the class list on spaces gives back the non-empty arguments in order |
| Home.SkipSpaces | frontend/src/pages/Home.js:75 | drops exactly the leading whitespace |
| Home.IsSpace | frontend/src/pages/Home.js:75 | the characters `\s` matches in a JavaScript regular expression: the ASCII whitespace, no-break space, the Unicode space separators, line and paragraph separators, and the byte-order mark |
| Home.Squash | frontend/src/pages/Home.js:75 | the sanitised name holds no whitespace |
| Home.ExportFilename | frontend/src/pages/Home.js:75 | the file name is the sanitised club name followed by "_lineup.png", and holds no whitespace |
| Home.ExportFilenameClean | frontend/src/pages/Home.js:75 | a club name without whitespace appears unchanged before "_lineup.png" |
| Home.ExportFilenameOfTwoWords | frontend/src/pages/Home.js:75 | two words separated by any whitespace run are joined by a single '_' in the file name |
| Home.SquashClean | frontend/src/pages/Home.js:75 | a name without whitespace is kept as it is |
| Home.SquashIdempotent | frontend/src/pages/Home.js:75 | sanitising twice equals sanitising once |
| Home.SquashAppend | frontend/src/pages/Home.js:75 | sanitising splits at a point outside a whitespace run |
| Home.SquashRun | frontend/src/pages/Home.js:75 | a whitespace run between non-space neighbours becomes exactly one "_" |
| Home.VoteLink | frontend/src/pages/Home.js:61 | the origin followed by "/vote/" and the id |
| Home.VoteRoute | frontend/src/App.js:15 | the route's parameter is a non-empty segment without "/" |
| Home.VoteRouteRoundTrip | frontend/src/App.js:15 | the route reads a vote path's id back, and every path it accepts is the vote path of the id it reads |
| Home.VoteLinkOpensVoting | frontend/src/pages/Home.js:61 | following a vote link opens the voting page on that player: sliders when stored, "not found" otherwise |

## Left out

- Rendering, styling, the jersey drawing and pitch markings: they are presentation only.
- Browser-only actions have no behaviour to prove: the PNG export, image upload, clipboard and notifications. The model keeps only the export file name, the download name and the vote link.
- Saving to and loading from browser storage, the HTTP requests and the database calls are I/O. The stored team is an `Option<Team>` that each request maps to the next one.
- Player ids come from the clock and a random number. `TeamContext.AddPlayer` takes a fresh id as a parameter instead, and requires that no player already has it.
- Concurrent votes racing on the server's read-modify-write are concurrency, which is out of scope.
- Drag coordinates are reals, not IEEE doubles, so rounding error is not modelled.
- Pitch.TokenOf: `overall` is the value frontend/src/components/Pitch.js:221-225 passes to the token. The token's markup does not display it, so the model records it without claiming it is shown.
- Pitch.DragTarget: requires a pitch of positive width and height, and so do Pitch.Drag, Pitch.DragWithoutMoving and Pitch.LatestMoveWins. A zero-size pitch, whose division gives Infinity or NaN, is not modelled.
- PlayerForm.HandleStatChange: requires a non-empty slider value, which the slider always supplies.
- VotingPage.HandleVoteChange: requires a non-empty slider value, for the same reason.
- The formation dropdown of the main page is left out. It imports a `FORMATIONS` export that the formation module does not define (it exports only `FORMATIONS_11` and `FORMATIONS_7`). `Object.keys(FORMATIONS)` at frontend/src/pages/Home.js:157 then runs on `undefined` while the dropdown renders. Depending on the bundler, that either fails the build or throws a TypeError, so the main page as written does not render its dialogs, roster list or export. The `Home` module models the page as it would behave once the dropdown lists a formation table. The model keeps the mode-indexed lookup that the roster store uses.
- The service's greeting route at "/" is left out: it returns a constant message.
- Home.VoteRoute: the router's matching of trailing slashes and encoded characters is left out. The model accepts exactly "/vote/" followed by one non-empty segment.
- JavaScript lists integer-like keys (such as "7") before the others, whatever the insertion order. The model keeps insertion order for every key. Every key the program uses (stat codes, vote codes, labels, formation names) is not integer-like.
- JavaScript object lookups that fall through to prototype keys (such as `constructor`) are left out. The formation and label tables are looked up as plain key lists.
- Pydantic's type coercion is left out, such as strings that parse as numbers and missing optional texts. Stats are modelled as integer ratings. The only reshaping modelled is the one the `Stats` model applies: filling defaults and renaming `def` and `def_`.
- Among the modelled files, no component calls the roster store's `addVote`, and none posts the team to the service. Votes are recorded by the service. The save route is modelled as written. `addVote` is modelled with the corrected arithmetic of "## Findings", where a missing rating counts 0; its as-written NaN total is kept in `TeamContext.RatingTotalAsWritten`.
- Stale React state closures are left out: each store operation reads the current team, and several updates batched into one render are not modelled.
- Server.GetTeam: when no team is stored, the default team is both stored and sent. Its player list is empty, so the wire form of its players does not matter.

## Findings

| source | as written | input that shows it | evidently intended | confidence | as-written member | corrected member |
|---|---|---|---|---|---|---|
| frontend/src/context/TeamContext.js:122 | `parseInt(v[key])` is NaN for an earlier vote without the key, so the new stat becomes NaN | votes [{tir: 60}], then a vote {rit: 80}: rit becomes NaN | a missing rating counts 0, as on the server | not executed | TeamContext.AsWrittenTotalIsNaN | TeamContext.Voted |
| frontend/src/components/PlayerCard.js:28-29 | the card's overall divides by the stat count, so a player without stats shows NaN | a player with stats {} | 75 without stats, as the roster list shows and as the pitch computes for its token | not executed | PlayerCard.CardOverallIsNaNWithoutStats | PlayerCard.Card |

=== FILE: formations.dfy ===
/** The static formation tables: for each named formation, the pitch slots in
    the order players fill them, as a line (role) and percentage coordinates.
    `Formations11` serves 11-a-side, `Formations7` 7-a-side. */
module Formations {
  import opened Wrappers
  import Text
  import Rounding

  /** The four lines of a lineup, goalkeeper first. */
  datatype Line = GK | DEF | MID | FWD

  datatype Slot = Slot(line: Line, x: int, y: int)

  datatype Formation = Formation(name: string, slots: seq<Slot>)

  /** Position of a line from the own goal outward. */
  function Depth(l: Line): nat {
    match l
    case GK => 0
    case DEF => 1
    case MID => 2
    case FWD => 3
  }

  const Keeper := Slot(GK, 50, 88)

  const Formations11: seq<Formation> := [
    Formation("4-4-2", [
      Keeper,
      Slot(DEF, 20, 75), Slot(DEF, 40, 75), Slot(DEF, 60, 75), Slot(DEF, 80, 75),
      Slot(MID, 20, 50), Slot(MID, 40, 50), Slot(MID, 60, 50), Slot(MID, 80, 50),
      Slot(FWD, 35, 25), Slot(FWD, 65, 25)]),
    Formation("4-3-3", [
      Keeper,
      Slot(DEF, 20, 75), Slot(DEF, 40, 75), Slot(DEF, 60, 75), Slot(DEF, 80, 75),
      Slot(MID, 30, 55), Slot(MID, 50, 50), Slot(MID, 70, 55),
      Slot(FWD, 20, 25), Slot(FWD, 50, 20), Slot(FWD, 80, 25)]),
    Formation("4-2-3-1", [
      Keeper,
      Slot(DEF, 20, 75), Slot(DEF, 40, 75), Slot(DEF, 60, 75), Slot(DEF, 80, 75),
      Slot(MID, 35, 60), Slot(MID, 65, 60),
      Slot(MID, 20, 40), Slot(MID, 50, 40), Slot(MID, 80, 40),
      Slot(FWD, 50, 20)]),
    Formation("3-5-2", [
      Keeper,
      Slot(DEF, 30, 75), Slot(DEF, 50, 75), Slot(DEF, 70, 75),
      Slot(MID, 15, 55), Slot(MID, 35, 50), Slot(MID, 50, 60), Slot(MID, 65, 50), Slot(MID, 85, 55),
      Slot(FWD, 35, 25), Slot(FWD, 65, 25)]),
    Formation("5-3-2", [
      Keeper,
      Slot(DEF, 15, 70), Slot(DEF, 30, 75), Slot(DEF, 50, 75), Slot(DEF, 70, 75), Slot(DEF, 85, 70),
      Slot(MID, 30, 50), Slot(MID, 50, 55), Slot(MID, 70, 50),
      Slot(FWD, 35, 25), Slot(FWD, 65, 25)])
  ]

  const Formations7: seq<Formation> := [
    Formation("3-2-1", [
      Keeper,
      Slot(DEF, 25, 70), Slot(DEF, 50, 75), Slot(DEF, 75, 70),
      Slot(MID, 35, 45), Slot(MID, 65, 45),
      Slot(FWD, 50, 20)]),
    Formation("2-3-1", [
      Keeper,
      Slot(DEF, 30, 75), Slot(DEF, 70, 75),
      Slot(MID, 20, 50), Slot(MID, 50, 50), Slot(MID, 80, 50),
      Slot(FWD, 50, 20)]),
    Formation("3-3", [
      Keeper,
      Slot(DEF, 25, 70), Slot(DEF, 50, 75), Slot(DEF, 75, 70),
      Slot(MID, 25, 40), Slot(MID, 50, 35), Slot(MID, 75, 40)]),
    Formation("2-2-2", [
      Keeper,
      Slot(DEF, 30, 75), Slot(DEF, 70, 75),
      Slot(MID, 30, 50), Slot(MID, 70, 50),
      Slot(FWD, 35, 25), Slot(FWD, 65, 25)]),
    Formation("1-4-1", [
      Keeper,
      Slot(DEF, 50, 75),
      Slot(MID, 20, 50), Slot(MID, 40, 50), Slot(MID, 60, 50), Slot(MID, 80, 50),
      Slot(FWD, 50, 20)])
  ]

  /** `table[name]`: the slots of the first formation called `name`, if any. */
  function Lookup(table: seq<Formation>, name: string): (r: Option<seq<Slot>>)
    ensures r.None? <==> forall i :: 0 <= i < |table| ==> table[i].name != name
    ensures r.Some? ==> exists i :: 0 <= i < |table| && table[i] == Formation(name, r.value)
  {
    if |table| == 0 then None
    else if table[0].name == name then Some(table[0].slots)
    else
      var r := Lookup(table[1..], name);
      assert forall i :: 1 <= i < |table| ==> table[i] == table[1..][i - 1];
      r
  }

  /** The number of players a game mode fields: 11 for '11', 7 for anything else. */
  function TeamSize(mode: string): nat {
    if mode == "11" then 11 else 7
  }

  /** The table consulted for a game mode: '11' selects 11-a-side, anything
      else 7-a-side. Every formation it offers fields the mode's full team. */
  function TableFor(mode: string): (r: seq<Formation>)
    ensures |r| > 0
    ensures forall i :: 0 <= i < |r| ==> WellFormed(r[i], TeamSize(mode))
  {
    Formations11WellFormed();
    Formations7WellFormed();
    if mode == "11" then Formations11 else Formations7
  }

  /** Each line follows the previous one: keeper, defence, midfield, attack. */
  predicate LinesInOrder(slots: seq<Slot>) {
    forall i :: 0 < i < |slots| ==> Depth(slots[i - 1].line) <= Depth(slots[i].line)
  }

  /** Every slot lies inside the pitch, in percent of its width and height. */
  predicate OnPitch(slots: seq<Slot>) {
    forall i :: 0 <= i < |slots| ==> 0 <= slots[i].x <= 100 && 0 <= slots[i].y <= 100
  }

  /** 1 (the keeper) plus the dash-separated line sizes of a name such as "4-2-3-1". */
  function Headcount(name: string): nat {
    1 + SumOfNumbers(Text.Split(name, '-'))
  }

  function SumOfNumbers(parts: seq<string>): nat {
    if |parts| == 0 then 0 else Text.ParseNat(parts[0]) + SumOfNumbers(parts[1..])
  }

  /** The shape half of `WellFormed`: size, keeper, line order, pitch bounds. */
  predicate LaidOut(f: Formation, size: nat) {
    && |f.slots| == size
    && |f.slots| > 0
    && f.slots[0] == Keeper
    && LinesInOrder(f.slots)
    && OnPitch(f.slots)
  }

  predicate WellFormed(f: Formation, size: nat) {
    LaidOut(f, size) && Headcount(f.name) == size
  }

  lemma HeadcountOfDigit(d: char)
    requires d != '-'
    ensures Headcount([d]) == 1 + Text.DigitValue(d)
  {
    Text.SplitWithout([d], '-');
    assert [[d]][1..] == [];
    assert [d][..0] == [];
    assert Text.ParseNat([d]) == Text.DigitValue(d);
    assert SumOfNumbers([[d]]) == Text.ParseNat([d]);
  }

  lemma HeadcountOfDashed(d: char, rest: string)
    requires d != '-'
    ensures Headcount([d] + "-" + rest) == Text.DigitValue(d) + Headcount(rest)
  {
    Text.SplitAtFirst([d], rest, '-');
    var parts := [[d]] + Text.Split(rest, '-');
    assert parts[0] == [d];
    assert parts[1..] == Text.Split(rest, '-');
    assert [d][..0] == [];
    assert Text.ParseNat([d]) == Text.DigitValue(d);
  }

  /** A two-line name "a-b" counts the keeper and both lines. */
  lemma HeadcountOfTwo(a: char, b: char)
    requires a != '-' && b != '-'
    ensures Headcount([a, '-', b]) == 1 + Text.DigitValue(a) + Text.DigitValue(b)
  {
    HeadcountOfDigit(b);
    HeadcountOfDashed(a, [b]);
    assert [a] + "-" + [b] == [a, '-', b];
  }

  /** A three-line name "a-b-c" counts the keeper and the three lines. */
  lemma HeadcountOfThree(a: char, b: char, c: char)
    requires a != '-' && b != '-' && c != '-'
    ensures Headcount([a, '-', b, '-', c]) ==
      1 + Text.DigitValue(a) + Text.DigitValue(b) + Text.DigitValue(c)
  {
    HeadcountOfTwo(b, c);
    HeadcountOfDashed(a, [b, '-', c]);
    assert [a] + "-" + [b, '-', c] == [a, '-', b, '-', c];
  }

  /** A four-line name "a-b-c-d" counts the keeper and the four lines. */
  lemma HeadcountOfFour(a: char, b: char, c: char, d: char)
    requires a != '-' && b != '-' && c != '-' && d != '-'
    ensures Headcount([a, '-', b, '-', c, '-', d]) ==
      1 + Text.DigitValue(a) + Text.DigitValue(b) + Text.DigitValue(c) + Text.DigitValue(d)
  {
    HeadcountOfThree(b, c, d);
    HeadcountOfDashed(a, [b, '-', c, '-', d]);
    assert [a] + "-" + [b, '-', c, '-', d] == [a, '-', b, '-', c, '-', d];
  }

  /** Lines never go backwards: a later slot is never deeper in the own half than an earlier one. */
  lemma {:induction false} LinesInOrderPairwise(slots: seq<Slot>, i: int, j: int)
    requires LinesInOrder(slots)
    requires 0 <= i <= j < |slots|
    ensures Depth(slots[i].line) <= Depth(slots[j].line)
    decreases j - i
  {
    if i < j {
      LinesInOrderPairwise(slots, i, j - 1);
    }
  }

  lemma Layout442()
    ensures LaidOut(Formations11[0], 11)
  {
  }

  lemma Formation442WellFormed()
    ensures WellFormed(Formations11[0], 11)
  {
    assert Formations11[0].name == "4-4-2";
    HeadcountOfThree('4', '4', '2');
    Layout442();
  }

  lemma Layout433()
    ensures LaidOut(Formations11[1], 11)
  {
  }

  lemma Formation433WellFormed()
    ensures WellFormed(Formations11[1], 11)
  {
    assert Formations11[1].name == "4-3-3";
    HeadcountOfThree('4', '3', '3');
    Layout433();
  }

  lemma Layout4231()
    ensures LaidOut(Formations11[2], 11)
  {
  }

  lemma Formation4231WellFormed()
    ensures WellFormed(Formations11[2], 11)
  {
    assert Formations11[2].name == "4-2-3-1";
    HeadcountOfFour('4', '2', '3', '1');
    Layout4231();
  }

  lemma Layout352()
    ensures LaidOut(Formations11[3], 11)
  {
  }

  lemma Formation352WellFormed()
    ensures WellFormed(Formations11[3], 11)
  {
    assert Formations11[3].name == "3-5-2";
    HeadcountOfThree('3', '5', '2');
    Layout352();
  }

  lemma Layout532()
    ensures LaidOut(Formations11[4], 11)
  {
  }

  lemma Formation532WellFormed()
    ensures WellFormed(Formations11[4], 11)
  {
    assert Formations11[4].name == "5-3-2";
    HeadcountOfThree('5', '3', '2');
    Layout532();
  }

  lemma Layout321()
    ensures LaidOut(Formations7[0], 7)
  {
  }

  lemma Formation321WellFormed()
    ensures WellFormed(Formations7[0], 7)
  {
    assert Formations7[0].name == "3-2-1";
    HeadcountOfThree('3', '2', '1');
    Layout321();
  }

  lemma Layout231()
    ensures LaidOut(Formations7[1], 7)
  {
  }

  lemma Formation231WellFormed()
    ensures WellFormed(Formations7[1], 7)
  {
    assert Formations7[1].name == "2-3-1";
    HeadcountOfThree('2', '3', '1');
    Layout231();
  }

  lemma Layout33()
    ensures LaidOut(Formations7[2], 7)
  {
  }

  lemma Formation33WellFormed()
    ensures WellFormed(Formations7[2], 7)
  {
    assert Formations7[2].name == "3-3";
    HeadcountOfTwo('3', '3');
    Layout33();
  }

  lemma Layout222()
    ensures LaidOut(Formations7[3], 7)
  {
  }

  lemma Formation222WellFormed()
    ensures WellFormed(Formations7[3], 7)
  {
    assert Formations7[3].name == "2-2-2";
    HeadcountOfThree('2', '2', '2');
    Layout222();
  }

  lemma Layout141()
    ensures LaidOut(Formations7[4], 7)
  {
  }

  lemma Formation141WellFormed()
    ensures WellFormed(Formations7[4], 7)
  {
    assert Formations7[4].name == "1-4-1";
    HeadcountOfThree('1', '4', '1');
    Layout141();
  }

  /** Every 11-a-side formation has eleven slots, the keeper first at (50, 88),
      lines in order, all slots on the pitch, and a name whose numbers add up
      to the ten outfield players. */
  lemma Formations11WellFormed()
    ensures forall i :: 0 <= i < |Formations11| ==> WellFormed(Formations11[i], 11)
  {
    forall i | 0 <= i < |Formations11|
      ensures WellFormed(Formations11[i], 11)
    {
      if i == 0 { Formation442WellFormed(); }
      else if i == 1 { Formation433WellFormed(); }
      else if i == 2 { Formation4231WellFormed(); }
      else if i == 3 { Formation352WellFormed(); }
      else { Formation532WellFormed(); }
    }
  }

  /** Every 7-a-side formation has seven slots under the same rules. */
  lemma Formations7WellFormed()
    ensures forall i :: 0 <= i < |Formations7| ==> WellFormed(Formations7[i], 7)
  {
    forall i | 0 <= i < |Formations7|
      ensures WellFormed(Formations7[i], 7)
    {
      if i == 0 { Formation321WellFormed(); }
      else if i == 1 { Formation231WellFormed(); }
      else if i == 2 { Formation33WellFormed(); }
      else if i == 3 { Formation222WellFormed(); }
      else { Formation141WellFormed(); }
    }
  }

  /** No name appears in both tables, and none twice in one table; the default
      formation '4-3-3' is an 11-a-side formation. */
  lemma TableNames()
    ensures forall i, j :: 0 <= i < |Formations11| && 0 <= j < |Formations7| ==>
      Formations11[i].name != Formations7[j].name
    ensures forall i, j :: 0 <= i < j < |Formations11| ==> Formations11[i].name != Formations11[j].name
    ensures forall i, j :: 0 <= i < j < |Formations7| ==> Formations7[i].name != Formations7[j].name
    ensures Lookup(Formations11, "4-3-3") == Some(Formations11[1].slots)
    ensures Lookup(Formations7, "4-3-3") == None
  {
    assert Formations11[1].name == "4-3-3";
  }
}

=== FILE: home.dfy ===
/** The editor's main page: the roster list, the dialogs it opens (player card
    and player form) and what their buttons do to the roster store, plus the
    strings the page builds: class lists, the export file name and the vote
    link. */
module Home {
  import opened Wrappers
  import opened Roster
  import Text
  import TeamContext
  import PlayerForm
  import Pitch
  import VotingPage
  import Server

  // ---------------------------------------------------------------- dialogs

  /** The page state: the shared team, and which dialog is open for whom. The
      form is the player form's record, which the form reloads whenever the
      player it edits or its open state changes. */
  datatype HomeState = HomeState(
    team: Team,
    formOpen: bool,
    editing: Option<Player>,
    form: PlayerPatch,
    selected: Option<Player>,
    cardOpen: bool)

  /** A click on a token or a roster row opens that player's card. */
  function PlayerClick(h: HomeState, p: Player): (r: HomeState)
    ensures r.selected == Some(p) && r.cardOpen
    ensures r.team == h.team && r.formOpen == h.formOpen && r.editing == h.editing && r.form == h.form
  {
    h.(selected := Some(p), cardOpen := true)
  }

  /** `handleEdit`: the card closes and the form opens on that player. */
  function HandleEdit(h: HomeState, p: Player): (r: HomeState)
    ensures r.editing == Some(p) && !r.cardOpen && r.formOpen
    ensures forall q :: Merge(q, r.form) == p
    ensures r.team == h.team && r.selected == h.selected
  {
    h.(editing := Some(p), cardOpen := false, formOpen := true, form := PlayerForm.Sync(Some(p)))
  }

  /** "Add Player": the form opens blank, editing nobody. */
  function OpenNewPlayerForm(h: HomeState): (r: HomeState)
    ensures r.editing.None? && r.formOpen && r.form == PlayerForm.BlankForm
    ensures r.team == h.team && r.selected == h.selected && r.cardOpen == h.cardOpen
  {
    h.(editing := None, formOpen := true, form := PlayerForm.Sync(None))
  }

  /** `handleFormSubmit(data)`: an edit updates the edited player's id, a new
      player is added under `freshId`; either way nobody is being edited after. */
  function HandleFormSubmit(h: HomeState, data: PlayerPatch, freshId: string): (r: HomeState)
    requires h.editing.None? ==> !HasId(h.team.players, freshId)
    ensures r.editing.None?
    ensures h.editing.Some? ==> r.team == TeamContext.UpdatePlayer(h.team, h.editing.value.id, data)
    ensures h.editing.None? ==> r.team == TeamContext.AddPlayer(h.team, data, freshId)
    ensures r == h.(team := r.team, editing := None)
  {
    match h.editing
    case Some(p) => h.(team := TeamContext.UpdatePlayer(h.team, p.id, data), editing := None)
    case None => h.(team := TeamContext.AddPlayer(h.team, data, freshId), editing := None)
  }

  /** Saving the form: the form's record is submitted, the form closes, and,
      editing nobody now, reloads blank. */
  function SubmitForm(h: HomeState, freshId: string): (r: HomeState)
    requires h.editing.None? ==> !HasId(h.team.players, freshId)
    ensures r.team == HandleFormSubmit(h, h.form, freshId).team
    ensures !r.formOpen && r.editing.None? && r.form == PlayerForm.BlankForm
    ensures r.selected == h.selected && r.cardOpen == h.cardOpen
  {
    HandleFormSubmit(h, h.form, freshId).(formOpen := false, form := PlayerForm.Sync(None))
  }

  /** The form's delete button, shown only while editing a player: that
      player's id leaves the roster and the form closes. */
  function DeleteFromForm(h: HomeState): (r: HomeState)
    requires h.editing.Some?
    ensures r.team == TeamContext.DeletePlayer(h.team, h.editing.value.id)
    ensures !HasId(r.team.players, h.editing.value.id)
    ensures !r.formOpen && r.editing == h.editing && r.form == PlayerForm.Sync(h.editing)
  {
    h.(team := TeamContext.DeletePlayer(h.team, h.editing.value.id), formOpen := false,
       form := PlayerForm.Sync(h.editing))
  }

  /** No two players share an id. */
  predicate UniqueIds(players: seq<Player>) {
    forall i, j :: 0 <= i < j < |players| ==> players[i].id != players[j].id
  }

  /** Opening a rostered player in the form and saving without changes leaves
      the roster as it was. */
  lemma EditUnchangedKeepsRoster(h: HomeState, p: Player, freshId: string)
    requires UniqueIds(h.team.players) && p in h.team.players
    ensures SubmitForm(HandleEdit(h, p), freshId).team == h.team
  {
    assert HandleEdit(h, p).form == AsPatch(p);
    UpdateWithItself(h.team, p);
  }

  /** Merging a rostered player's own record over the players with its id
      changes nothing when ids are unique. */
  lemma UpdateWithItself(t: Team, p: Player)
    requires UniqueIds(t.players) && p in t.players
    ensures TeamContext.UpdatePlayer(t, p.id, AsPatch(p)) == t
  {
    var r := TeamContext.UpdatePlayer(t, p.id, AsPatch(p));
    var k :| 0 <= k < |t.players| && t.players[k] == p;
    forall i | 0 <= i < |t.players| ensures r.players[i] == t.players[i] {
      if t.players[i].id == p.id {
        assert i == k;
        MergeWhole(t.players[i], p);
      }
    }
    assert r.players == t.players;
  }

  /** Adding through a blank form appends one player under the fresh id, rated
      70 in each of the seven form stats. */
  lemma AddBlankAppendsOne(h: HomeState, freshId: string)
    requires !HasId(h.team.players, freshId)
    ensures var t := SubmitForm(OpenNewPlayerForm(h), freshId).team;
      && |t.players| == |h.team.players| + 1
      && t.players[..|h.team.players|] == h.team.players
      && t.players[|h.team.players|].id == freshId
      && t.players[|h.team.players|].stats == PlayerForm.Uniform(PlayerForm.StatNames, 70)
  {
  }

  /** Deleting from the form removes exactly the edited player's id. */
  lemma EditThenDelete(h: HomeState, p: Player)
    ensures var t := DeleteFromForm(HandleEdit(h, p)).team;
      && !HasId(t.players, p.id)
      && forall q :: q in h.team.players && q.id != p.id ==> q in t.players
  {
  }

  // ------------------------------------------------------------ roster list

  datatype RosterRow = RosterRow(
    name: string,
    overall: int,
    roleColour: string,
    role: string,
    number: string,
    portrait: Option<string>)

  datatype RosterView = RosterView(rows: seq<RosterRow>, emptyNotice: bool)

  /** The squad list: one row per player, in roster order, showing the plain
      name; the "no players yet" notice exactly when the roster is empty. */
  function RosterList(players: seq<Player>): (r: RosterView)
    ensures |r.rows| == |players|
    ensures r.emptyNotice <==> |players| == 0
    ensures forall i :: 0 <= i < |players| ==>
      && r.rows[i].name == players[i].name
      && r.rows[i].overall == Overall(players[i].stats)
      && r.rows[i].roleColour == Pitch.RoleColour(players[i].role)
      && r.rows[i].role == players[i].role && r.rows[i].number == players[i].number
      && (r.rows[i].portrait.Some? <==> players[i].avatar != "")
  {
    var rows := seq(|players|, i requires 0 <= i < |players| =>
      var p := players[i];
      RosterRow(p.name, Overall(p.stats), Pitch.RoleColour(p.role), p.role, p.number,
                if p.avatar != "" then Some(p.avatar) else None));
    RosterView(rows, |players| == 0)
  }

  /** A row shows the overall passed to the player's pitch token, and the
      token's role colour. */
  lemma RosterMatchesPitch(t: Team, i: int)
    requires 0 <= i < |t.players|
    ensures RosterList(t.players).rows[i].overall == Pitch.Tokens(t)[i].overall
    ensures RosterList(t.players).rows[i].roleColour == Pitch.Tokens(t)[i].roleColour
  {
  }

  // ------------------------------------------------------------ class lists

  /** The arguments that are not the empty string, in order. */
  function Truthy(args: seq<string>): (r: seq<string>)
    ensures |r| <= |args|
    ensures forall i :: 0 <= i < |r| ==> r[i] != ""
  {
    if |args| == 0 then []
    else (if args[0] == "" then [] else [args[0]]) + Truthy(args[1..])
  }

  /** `cn(...classes)`: the truthy arguments joined by single spaces. The
      class list is empty exactly when every argument is. */
  function Cn(args: seq<string>): (r: string)
    ensures r == "" <==> forall i :: 0 <= i < |args| ==> args[i] == ""
  {
    JoinTruthyEmpty(args);
    Text.Join(Truthy(args), ' ')
  }

  lemma {:induction false} TruthyMembers(args: seq<string>)
    ensures forall x :: x in Truthy(args) <==> x in args && x != ""
  {
    if |args| > 0 {
      TruthyMembers(args[1..]);
      assert args == [args[0]] + args[1..];
    }
  }

  /** Filtering keeps order: it distributes over concatenation. */
  lemma {:induction false} TruthyAppend(a: seq<string>, b: seq<string>)
    ensures Truthy(a + b) == Truthy(a) + Truthy(b)
  {
    if |a| > 0 {
      TruthyAppend(a[1..], b);
      assert (a + b)[1..] == a[1..] + b;
    } else {
      assert a + b == b;
    }
  }

  lemma {:induction false} JoinEmpty(xs: seq<string>, c: char)
    requires forall i :: 0 <= i < |xs| ==> xs[i] != ""
    ensures Text.Join(xs, c) == "" <==> |xs| == 0
  {
    if |xs| > 1 {
      assert |Text.Join(xs, c)| >= |xs[0]| + 1;
    }
  }

  /** Joining the truthy arguments gives "" exactly when every argument is "". */
  lemma JoinTruthyEmpty(args: seq<string>)
    ensures Text.Join(Truthy(args), ' ') == "" <==> forall i :: 0 <= i < |args| ==> args[i] == ""
  {
    JoinEmpty(Truthy(args), ' ');
    TruthyMembers(args);
    forall i | 0 <= i < |args| ensures args[i] == "" || args[i] in Truthy(args) {
      assert args[i] in args;
    }
    if Truthy(args) != [] {
      assert Truthy(args)[0] in Truthy(args);
    }
  }

  /** A single class is used as it is. */
  lemma CnSingle(x: string)
    ensures Cn([x]) == x
  {
    assert [x][1..] == [];
  }

  /** `cn` over two argument lists joins their class lists with one space,
      leaving out an empty side. Together with `CnSingle` this fixes `cn` on
      every input, class strings holding spaces included. */
  lemma CnAppend(a: seq<string>, b: seq<string>)
    ensures Cn(a + b) ==
      if Cn(a) == "" then Cn(b)
      else if Cn(b) == "" then Cn(a)
      else Cn(a) + " " + Cn(b)
  {
    TruthyAppend(a, b);
    Text.JoinAppend(Truthy(a), Truthy(b), ' ');
    JoinEmpty(Truthy(a), ' ');
    JoinEmpty(Truthy(b), ' ');
  }

  /** Space-free class names can be read back: splitting the class list on
      spaces gives the truthy arguments in order. */
  lemma CnSplit(args: seq<string>)
    requires forall i :: 0 <= i < |args| ==> ' ' !in args[i]
    requires exists i :: 0 <= i < |args| && args[i] != ""
    ensures Text.Split(Cn(args), ' ') == Truthy(args)
  {
    TruthyMembers(args);
    var i :| 0 <= i < |args| && args[i] != "";
    assert args[i] in Truthy(args);
    forall j | 0 <= j < |Truthy(args)| ensures ' ' !in Truthy(args)[j] {
      assert Truthy(args)[j] in args;
    }
    Text.SplitJoin(Truthy(args), ' ');
  }

  // ------------------------------------------------------- export file name

  /** A character matched by `\s` in a JavaScript regular expression. */
  predicate IsSpace(c: char) {
    || c == ' ' || c == '\t' || c == '\n' || c == '\U{000B}' || c == '\U{000C}' || c == '\r'
    || c == '\U{00A0}' || c == '\U{1680}' || ('\U{2000}' <= c <= '\U{200A}')
    || c == '\U{2028}' || c == '\U{2029}' || c == '\U{202F}' || c == '\U{205F}'
    || c == '\U{3000}' || c == '\U{FEFF}'
  }

  predicate NoSpace(s: string) {
    forall i :: 0 <= i < |s| ==> !IsSpace(s[i])
  }

  /** `s` without its leading whitespace. */
  function SkipSpaces(s: string): (r: string)
    ensures |r| <= |s| && r == s[|s| - |r|..]
    ensures |r| > 0 ==> !IsSpace(r[0])
    ensures forall i :: 0 <= i < |s| - |r| ==> IsSpace(s[i])
  {
    if |s| > 0 && IsSpace(s[0]) then SkipSpaces(s[1..]) else s
  }

  /** `s.replace(/\s+/g, '_')`: every maximal whitespace run becomes one '_'. */
  function Squash(s: string): (r: string)
    ensures NoSpace(r)
    decreases |s|
  {
    if |s| == 0 then ""
    else if IsSpace(s[0]) then "_" + Squash(SkipSpaces(s[1..]))
    else [s[0]] + Squash(s[1..])
  }

  /** The name the pitch image is downloaded under: the club name with its
      whitespace runs turned into '_', then "_lineup.png". */
  function ExportFilename(clubName: string): (r: string)
    ensures r == Squash(clubName) + "_lineup.png"
    ensures NoSpace(r)
  {
    Squash(clubName) + "_lineup.png"
  }

  /** A club name without whitespace is used as it is. */
  lemma ExportFilenameClean(clubName: string)
    requires NoSpace(clubName)
    ensures ExportFilename(clubName) == clubName + "_lineup.png"
  {
    SquashClean(clubName);
  }

  /** Two space-free words separated by any whitespace run are joined by one
      '_': "Real  Madrid" and "Real\tMadrid" both give "Real_Madrid_lineup.png". */
  lemma ExportFilenameOfTwoWords(a: string, w: string, b: string)
    requires NoSpace(a) && NoSpace(b)
    requires |w| > 0 && forall i :: 0 <= i < |w| ==> IsSpace(w[i])
    ensures ExportFilename(a + w + b) == a + "_" + b + "_lineup.png"
  {
    SquashRun(a, w, b);
    SquashClean(a);
    SquashClean(b);
    Associative(a, w, b);
    Associative(a, "_", b);
  }

  /** A name without whitespace is left as it is. */
  lemma {:induction false} SquashClean(s: string)
    requires NoSpace(s)
    ensures Squash(s) == s
  {
    if |s| > 0 {
      SquashClean(s[1..]);
      assert [s[0]] + s[1..] == s;
    }
  }

  /** Sanitising twice is sanitising once. */
  lemma SquashIdempotent(s: string)
    ensures Squash(Squash(s)) == Squash(s)
  {
    SquashClean(Squash(s));
  }

  /** Leading whitespace of `x + t` lies within `x` when `x` ends in a non-space. */
  lemma {:induction false} SkipAppend(x: string, t: string)
    requires |x| > 0 && !IsSpace(x[|x| - 1])
    ensures SkipSpaces(x + t) == SkipSpaces(x) + t
  {
    if IsSpace(x[0]) {
      assert (x + t)[1..] == x[1..] + t;
      SkipAppend(x[1..], t);
    }
  }

  /** Skipping leading whitespace keeps a final non-space character. */
  lemma {:induction false} SkipKeepsLast(x: string)
    requires |x| > 0 && !IsSpace(x[|x| - 1])
    ensures |SkipSpaces(x)| > 0 && SkipSpaces(x)[|SkipSpaces(x)| - 1] == x[|x| - 1]
  {
    if IsSpace(x[0]) {
      SkipKeepsLast(x[1..]);
    }
  }

  /** Sanitising splits at a point that does not fall inside a whitespace run. */
  lemma {:induction false} SquashAppend(a: string, t: string)
    requires |a| == 0 || !IsSpace(a[|a| - 1])
    ensures Squash(a + t) == Squash(a) + Squash(t)
    decreases |a|, 1
  {
    if |a| == 0 {
      assert a + t == t;
    } else if IsSpace(a[0]) {
      SquashAppendAtRun(a, t);
    } else {
      SquashAppendAtChar(a, t);
    }
  }

  lemma {:induction false} SquashAppendAtRun(a: string, t: string)
    requires |a| > 0 && IsSpace(a[0]) && !IsSpace(a[|a| - 1])
    ensures Squash(a + t) == Squash(a) + Squash(t)
    decreases |a|, 0
  {
    SquashAtSpace(a, t);
    var x := a[1..];
    assert x[|x| - 1] == a[|a| - 1];
    SkipAppend(x, t);
    SkipKeepsLast(x);
    var y := SkipSpaces(x);
    SquashAppend(y, t);
    Associative("_", Squash(y), Squash(t));
  }

  /** One step of `Squash` on `a + t` at a leading whitespace character of `a`. */
  lemma SquashAtSpace(a: string, t: string)
    requires |a| > 0 && IsSpace(a[0])
    ensures Squash(a + t) == "_" + Squash(SkipSpaces(a[1..] + t))
    ensures Squash(a) == "_" + Squash(SkipSpaces(a[1..]))
  {
    assert (a + t)[0] == a[0] && (a + t)[1..] == a[1..] + t;
  }

  lemma Associative(u: string, v: string, w: string)
    ensures u + (v + w) == (u + v) + w
  {
  }

  lemma {:induction false} SquashAppendAtChar(a: string, t: string)
    requires |a| > 0 && !IsSpace(a[0]) && !IsSpace(a[|a| - 1])
    ensures Squash(a + t) == Squash(a) + Squash(t)
    decreases |a|, 0
  {
    var s := a + t;
    assert s[0] == a[0] && s[1..] == a[1..] + t;
    assert |a| == 1 || a[1..][|a[1..]| - 1] == a[|a| - 1];
    SquashAppend(a[1..], t);
    assert Squash(s) == [a[0]] + Squash(a[1..] + t);
  }

  /** A whitespace run between non-space neighbours becomes one '_'. */
  lemma {:induction false} SquashRun(a: string, w: string, b: string)
    requires |a| == 0 || !IsSpace(a[|a| - 1])
    requires |w| > 0 && forall i :: 0 <= i < |w| ==> IsSpace(w[i])
    requires |b| == 0 || !IsSpace(b[0])
    ensures Squash(a + (w + b)) == Squash(a) + ("_" + Squash(b))
  {
    SquashAppend(a, w + b);
    LeadingRun(w, b);
  }

  lemma {:induction false} LeadingRun(w: string, b: string)
    requires |w| > 0 && forall i :: 0 <= i < |w| ==> IsSpace(w[i])
    requires |b| == 0 || !IsSpace(b[0])
    ensures Squash(w + b) == "_" + Squash(b)
  {
    var s := w + b;
    assert s[0] == w[0] && s[1..] == w[1..] + b;
    SkipRun(w[1..], b);
  }

  lemma {:induction false} SkipRun(w: string, b: string)
    requires forall i :: 0 <= i < |w| ==> IsSpace(w[i])
    requires |b| == 0 || !IsSpace(b[0])
    ensures SkipSpaces(w + b) == b
  {
    if |w| > 0 {
      assert (w + b)[0] == w[0] && (w + b)[1..] == w[1..] + b;
      SkipRun(w[1..], b);
    } else {
      assert w + b == b;
    }
  }

  // -------------------------------------------------------------- vote link

  const VotePrefix := "/vote/"

  /** The path part of a vote link. */
  function VotePath(id: string): string {
    VotePrefix + id
  }

  /** `handleGenerateLink`: the page origin followed by the vote path. */
  function VoteLink(origin: string, id: string): (r: string)
    ensures r == origin + VotePath(id)
  {
    origin + "/vote/" + id
  }

  /** The route `/vote/:playerId`: the parameter is the one non-empty path
      segment after `/vote/`. */
  function VoteRoute(path: string): (r: Option<string>)
    ensures r.Some? ==> r.value != "" && '/' !in r.value
  {
    if |path| > |VotePrefix| && path[..|VotePrefix|] == VotePrefix && '/' !in path[|VotePrefix|..]
    then Some(path[|VotePrefix|..])
    else None
  }

  /** The route reads back the id from a vote link's path, and a path the route
      accepts is the vote path of the id it reads. */
  lemma VoteRouteRoundTrip(id: string, path: string)
    ensures id != "" && '/' !in id ==> VoteRoute(VotePath(id)) == Some(id)
    ensures VoteRoute(path).Some? ==> path == VotePath(VoteRoute(path).value)
  {
    if id != "" && '/' !in id {
      var p := VotePath(id);
      assert p[..|VotePrefix|] == VotePrefix && p[|VotePrefix|..] == id;
    }
    if VoteRoute(path).Some? {
      assert path == path[..|VotePrefix|] + path[|VotePrefix|..];
    }
  }

  /** Following a player's vote link opens the voting page on that player: the
      sliders when the server has the player, "not found" otherwise. */
  lemma VoteLinkOpensVoting(id: string, store: Option<Team>)
    requires id != "" && '/' !in id
    ensures VoteRoute(VotePath(id)) == Some(id)
    ensures VotingPage.ViewOf(VotingPage.Mount(VotingPage.Start, VoteRoute(VotePath(id)).value, store)) ==
      if store.Some? && HasId(store.value.players, id) then VotingPage.VoteForm else VotingPage.NotFound
  {
    VoteRouteRoundTrip(id, "");
    VotingPage.MountedView(id, store);
  }
}

=== FILE: js_object.dfy ===
/** String-keyed records as JavaScript objects and Python dicts keep them: an
    ordered list of (key, value) entries. The order is insertion order, which is
    the order `Object.keys`, `Object.values` and `for key in dict` visit. */
module JsObject {
  import opened Wrappers

  type Obj<V> = seq<(string, V)>

  /** `Object.keys(o)`: the keys in insertion order. */
  function Keys<V>(o: Obj<V>): seq<string> {
    seq(|o|, i requires 0 <= i < |o| => o[i].0)
  }

  /** `Object.values(o)`: the values in key order. */
  function Values<V>(o: Obj<V>): seq<V> {
    seq(|o|, i requires 0 <= i < |o| => o[i].1)
  }

  /** No key occurs twice, as in every JavaScript object and Python dict. */
  predicate DistinctKeys<V>(o: Obj<V>) {
    forall i, j :: 0 <= i < j < |o| ==> o[i].0 != o[j].0
  }

  /** Distinct keys is distinct entries of `Keys`. */
  lemma DistinctByKeys<V>(o: Obj<V>)
    requires forall i, j :: 0 <= i < j < |Keys(o)| ==> Keys(o)[i] != Keys(o)[j]
    ensures DistinctKeys(o)
  {
    forall i, j | 0 <= i < j < |o| ensures o[i].0 != o[j].0 {
      assert Keys(o)[i] == o[i].0 && Keys(o)[j] == o[j].0;
    }
  }

  lemma KeysCons<V>(o: Obj<V>)
    requires |o| > 0
    ensures Keys(o) == [o[0].0] + Keys(o[1..])
  {
  }

  /** `o[k]`: the value stored under `k`, or None when `k` is not a key. */
  function Get<V>(o: Obj<V>, k: string): (r: Option<V>)
    ensures r.Some? <==> k in Keys(o)
    ensures r.Some? ==> (k, r.value) in o
  {
    if |o| == 0 then None
    else
      KeysCons(o);
      if o[0].0 == k then Some(o[0].1)
      else Get(o[1..], k)
  }

  /** `o[k] = v`: overwrites the entry of `k` in place, or appends one. */
  function Set<V>(o: Obj<V>, k: string, v: V): (r: Obj<V>)
    ensures Get(r, k) == Some(v)
    ensures forall j :: j != k ==> Get(r, j) == Get(o, j)
    ensures Keys(r) == if k in Keys(o) then Keys(o) else Keys(o) + [k]
  {
    if |o| == 0 then [(k, v)]
    else if o[0].0 == k then
      var r := [(k, v)] + o[1..];
      SameKeysAtFront(o, r);
      r
    else
      var rest := Set(o[1..], k, v);
      var r := [o[0]] + rest;
      KeysCons(o);
      assert r[1..] == rest;
      KeysCons(r);
      assert k in Keys(o) <==> k in Keys(o[1..]);
      if k in Keys(o[1..]) then r
      else
        assert Keys(r) == Keys(o) + [k] by {
          assert [o[0].0] + (Keys(o[1..]) + [k]) == ([o[0].0] + Keys(o[1..])) + [k];
        }
        r
  }

  /** Replacing the first entry by one with the same key keeps the key list. */
  lemma SameKeysAtFront<V>(o: Obj<V>, r: Obj<V>)
    requires |o| > 0 && |r| > 0 && o[0].0 == r[0].0 && o[1..] == r[1..]
    ensures Keys(r) == Keys(o)
  {
    KeysCons(o);
    KeysCons(r);
  }

  /** Setting a key never makes a key occur twice. */
  lemma SetDistinct<V>(o: Obj<V>, k: string, v: V)
    requires DistinctKeys(o)
    ensures DistinctKeys(Set(o, k, v))
  {
    var r := Set(o, k, v);
    forall i, j | 0 <= i < j < |r| ensures r[i].0 != r[j].0 {
      assert r[i].0 == Keys(r)[i] && r[j].0 == Keys(r)[j];
      if j < |o| {
        assert Keys(o)[i] == o[i].0 && Keys(o)[j] == o[j].0;
      } else {
        assert Keys(r)[j] == k && k !in Keys(o);
        assert Keys(o)[i] == o[i].0;
      }
    }
  }

  /** Every entry after `o[k] = v` is an entry of `o` or the new one. */
  lemma {:induction false} SetEntries<V>(o: Obj<V>, k: string, v: V)
    ensures forall e :: e in Set(o, k, v) ==> e in o || e == (k, v)
  {
    if |o| > 0 && o[0].0 != k {
      SetEntries(o[1..], k, v);
      assert Set(o, k, v) == [o[0]] + Set(o[1..], k, v);
    }
  }

  /** With distinct keys, each entry is what its key looks up. */
  lemma GetEntry<V>(o: Obj<V>, i: int)
    requires DistinctKeys(o)
    requires 0 <= i < |o|
    ensures Get(o, o[i].0) == Some(o[i].1)
  {
    assert Keys(o)[i] == o[i].0;
    var r := Get(o, o[i].0);
    var j :| 0 <= j < |o| && o[j] == (o[i].0, r.value);
  }

  /** An object built from its keys, one value per key in the same order. */
  function FromKeys<V>(ks: seq<string>, f: string -> V): (r: Obj<V>)
    ensures Keys(r) == ks
    ensures forall i :: 0 <= i < |r| ==> r[i] == (ks[i], f(ks[i]))
    ensures forall k :: k in ks ==> Get(r, k) == Some(f(k))
  {
    if |ks| == 0 then []
    else
      var rest := FromKeys(ks[1..], f);
      var r := [(ks[0], f(ks[0]))] + rest;
      assert r[1..] == rest;
      KeysCons(r);
      r
  }
}

=== FILE: pitch.dfy ===
/** The pitch view: the background chosen by the pitch colour, one draggable
    token per player, and the drag gesture that moves a token. A drag is
    measured from where the pointer went down, in pixels, and turned into a
    percentage of the pitch size. */
module Pitch {
  import opened Wrappers
  import opened JsObject
  import opened Roster
  import TeamContext

  /** `Math.max(0, Math.min(100, v))`. */
  function Clamp(v: real): (r: real)
    ensures 0.0 <= r <= 100.0
    ensures 0.0 <= v <= 100.0 ==> r == v
    ensures v < 0.0 ==> r == 0.0
    ensures v > 100.0 ==> r == 100.0
  {
    if v < 0.0 then 0.0 else if v > 100.0 then 100.0 else v
  }

  /** Clamping never reverses the order of two coordinates. */
  lemma ClampMonotone(a: real, b: real)
    requires a <= b
    ensures Clamp(a) <= Clamp(b)
  {
  }

  /** Where a token dragged by (dx, dy) pixels from `start` lands on a pitch of
      `width` x `height` pixels: the start plus the displacement in percent,
      kept on the pitch. */
  function DragTarget(start: Position, dx: real, dy: real, width: real, height: real): (r: Position)
    requires width > 0.0 && height > 0.0
    ensures 0.0 <= r.x <= 100.0 && 0.0 <= r.y <= 100.0
    ensures var x := start.x + dx / width * 100.0;
      && (0.0 <= x <= 100.0 ==> r.x == x)
      && (x < 0.0 ==> r.x == 0.0)
      && (x > 100.0 ==> r.x == 100.0)
    ensures var y := start.y + dy / height * 100.0;
      && (0.0 <= y <= 100.0 ==> r.y == y)
      && (y < 0.0 ==> r.y == 0.0)
      && (y > 100.0 ==> r.y == 100.0)
  {
    Position(Clamp(start.x + dx / width * 100.0), Clamp(start.y + dy / height * 100.0))
  }

  predicate OnPitch(p: Position) {
    0.0 <= p.x <= 100.0 && 0.0 <= p.y <= 100.0
  }

  /** A pointer that has not moved leaves an on-pitch token where it was. */
  lemma DragWithoutMoving(start: Position, width: real, height: real)
    requires width > 0.0 && height > 0.0
    requires OnPitch(start)
    ensures DragTarget(start, 0.0, 0.0, width, height) == start
  {
  }

  /** One pointer move of a drag that began on player `p`: every player with
      `p`'s id goes to the drag target computed from `p`'s position when the
      pointer went down. */
  function Drag(t: Team, p: Player, dx: real, dy: real, width: real, height: real): (r: Team)
    requires width > 0.0 && height > 0.0
    ensures |r.players| == |t.players|
    ensures forall i :: 0 <= i < |t.players| && t.players[i].id == p.id ==>
      TeamContext.SameButPosition(t.players[i], r.players[i]) && OnPitch(r.players[i].position)
    ensures forall i :: 0 <= i < |t.players| && t.players[i].id == p.id ==>
      r.players[i].position == DragTarget(p.position, dx, dy, width, height)
    ensures forall i :: 0 <= i < |t.players| && t.players[i].id != p.id ==> r.players[i] == t.players[i]
    ensures r.settings == t.settings && r.club == t.club
  {
    TeamContext.UpdatePlayerPosition(t, p.id, DragTarget(p.position, dx, dy, width, height))
  }

  /** Each move of a drag is measured from the same start, so only the latest
      move counts: the moves before it leave no trace. */
  lemma LatestMoveWins(t: Team, p: Player, dx1: real, dy1: real, dx2: real, dy2: real, width: real, height: real)
    requires width > 0.0 && height > 0.0
    ensures Drag(Drag(t, p, dx1, dy1, width, height), p, dx2, dy2, width, height)
         == Drag(t, p, dx2, dy2, width, height)
  {
    var once := Drag(t, p, dx2, dy2, width, height);
    var first := Drag(t, p, dx1, dy1, width, height);
    var twice := Drag(first, p, dx2, dy2, width, height);
    var target := DragTarget(p.position, dx2, dy2, width, height);
    forall i | 0 <= i < |t.players| ensures twice.players[i] == once.players[i] {
      if t.players[i].id == p.id {
        assert first.players[i].id == p.id;
        assert twice.players[i] == t.players[i].(position := target);
      }
    }
    assert twice.players == once.players;
  }

  /** Background class per pitch colour. */
  const Backgrounds: Obj<string> := [
    ("green", "bg-[#2d5a27]"),
    ("red", "bg-[#4a1a1a]"),
    ("blue", "bg-[#1a2a4a]"),
    ("black", "bg-[#1a1a1a]")]

  const DefaultBackground := "bg-[#2d5a27]"

  /** `getPitchBackground`: the colour's class, green for any other colour. */
  function PitchBackground(color: string): (r: string)
    ensures r == Get(Backgrounds, color).GetOr(DefaultBackground)
  {
    if color == "green" then "bg-[#2d5a27]"
    else if color == "red" then "bg-[#4a1a1a]"
    else if color == "blue" then "bg-[#1a2a4a]"
    else if color == "black" then "bg-[#1a1a1a]"
    else "bg-[#2d5a27]"
  }

  /** Marker class per role. */
  const RoleColours: Obj<string> := [
    ("GK", "bg-yellow-400"),
    ("DEF", "bg-blue-500"),
    ("MID", "bg-emerald-500")]

  const DefaultRoleColour := "bg-rose-500"

  /** The role marker's class: forwards and any unknown role share the last colour. */
  function RoleColour(role: string): (r: string)
    ensures r == Get(RoleColours, role).GetOr(DefaultRoleColour)
  {
    if role == "GK" then "bg-yellow-400"
    else if role == "DEF" then "bg-blue-500"
    else if role == "MID" then "bg-emerald-500"
    else "bg-rose-500"
  }

  /** Distinct roles of the table get distinct markers, none of them the default. */
  lemma RoleColoursDistinct()
    ensures forall i, j :: 0 <= i < j < |RoleColours| ==> RoleColour(RoleColours[i].0) != RoleColour(RoleColours[j].0)
    ensures forall i :: 0 <= i < |RoleColours| ==> RoleColour(RoleColours[i].0) != DefaultRoleColour
  {
  }

  /** JavaScript `a || b` on strings: the empty string is falsy. */
  function Or(a: string, b: string): (r: string)
    ensures a != "" ==> r == a
    ensures a == "" ==> r == b
  {
    if a != "" then a else b
  }

  const DefaultKit := "#ef4444"
  const DefaultKitNumber := "#ffffff"

  /** What a player's token is given: its position, kit, number, stripes, role
      marker and caption, which it shows, and the overall passed to it, which
      it does not display. */
  datatype Token = Token(
    at: Position,
    kit: string,
    numberColour: string,
    number: string,
    stripes: bool,
    roleColour: string,
    caption: string,
    overall: int)

  /** The token of a player under the current pitch settings. */
  function TokenOf(p: Player, s: PitchSettings): (r: Token)
    ensures r.at == p.position && r.number == p.number
    ensures r.kit != "" && r.numberColour != ""
    ensures s.kitColor != "" ==> r.kit == s.kitColor
    ensures s.kitNumberColor != "" ==> r.numberColour == s.kitNumberColor
    ensures r.stripes <==> s.texture == "striped"
    ensures r.roleColour == RoleColour(p.role)
    ensures r.caption == DisplayName(p)
    ensures r.overall == Overall(p.stats)
  {
    Token(p.position, Or(s.kitColor, DefaultKit), Or(s.kitNumberColor, DefaultKitNumber),
          p.number, s.texture == "striped", RoleColour(p.role), DisplayName(p), Overall(p.stats))
  }

  /** Settings that leave the kit colours empty show the default kit. */
  lemma EmptyKitShowsDefault(p: Player, s: PitchSettings)
    requires s.kitColor == "" && s.kitNumberColor == ""
    ensures TokenOf(p, s).kit == DefaultKit && TokenOf(p, s).numberColour == DefaultKitNumber
  {
  }

  /** The overall passed to a token stays on the rating scale of its stats. */
  lemma TokenOverallOnScale(p: Player, s: PitchSettings)
    requires forall i :: 0 <= i < |p.stats| ==> 1 <= p.stats[i].1 <= 99
    ensures 1 <= TokenOf(p, s).overall <= 99
  {
    if |p.stats| > 0 {
      OverallWithin(p.stats, 1, 99);
    }
  }

  /** One token per player, in roster order. */
  function Tokens(t: Team): (r: seq<Token>)
    ensures |r| == |t.players|
    ensures forall i :: 0 <= i < |r| ==> r[i] == TokenOf(t.players[i], t.settings)
  {
    seq(|t.players|, i requires 0 <= i < |t.players| => TokenOf(t.players[i], t.settings))
  }
}

=== FILE: player_card.dfy ===
/** The player card dialog: the overall rating, role, name and one line per
    stat of the selected player, and the file name its image is saved under. */
module PlayerCard {
  import opened Wrappers
  import opened JsObject
  import opened Roster
  import Rounding
  import Server
  import PlayerForm
  import Pitch

  /** The card's overall as written: the rounded mean of the stat values,
      which for a player without stats is 0 / 0, that is NaN (None here). */
  function OverallAsWritten(stats: Ratings): (r: Option<int>)
    ensures r.None? <==> |stats| == 0
    ensures r.Some? ==> r.value == Overall(stats)
  {
    var vs := Values(stats);
    if |vs| == 0 then None else Some(Rounding.RoundHalfUp(Rounding.Sum(vs), |vs|))
  }

  /** A player with an empty stat object gets NaN as overall on the card,
      where the roster list shows 75 and the pitch computes 75 for its token. */
  lemma CardOverallIsNaNWithoutStats()
    ensures OverallAsWritten([]).None?
    ensures Overall([]) == 75
  {
  }

  /** `key.substring(0, 3)`: at most the first three characters. */
  function Abbrev(key: string): (r: string)
    ensures |r| <= 3 && r <= key
    ensures |key| >= 3 ==> |r| == 3
    ensures |key| < 3 ==> r == key
  {
    if |key| <= 3 then key else key[..3]
  }

  /** For a player with stats, the card's overall lies between the lowest and
      the highest rating: any bounds of all ratings bound it too. */
  lemma CardOverallWithin(stats: Ratings, lo: int, hi: int)
    requires |stats| > 0
    requires forall i :: 0 <= i < |stats| ==> lo <= stats[i].1 <= hi
    ensures OverallAsWritten(stats).Some?
    ensures lo <= OverallAsWritten(stats).value <= hi
  {
    OverallWithin(stats, lo, hi);
  }

  /** A stat line: the abbreviated code and the rating. */
  datatype StatLine = StatLine(code: string, rating: int)

  datatype CardView = CardView(
    overall: int,
    role: string,
    title: string,
    portrait: Option<string>,
    lines: seq<StatLine>,
    downloadName: string)

  /** `${player.name}_card.png`. */
  function DownloadName(name: string): (r: string)
    ensures |r| == |name| + 9
    ensures r[..|name|] == name && r[|name|..] == "_card.png"
  {
    name + "_card.png"
  }

  /** Different players' names never share a download name: the name can be
      read back from the file name. */
  lemma DownloadNameInjective(a: string, b: string)
    requires DownloadName(a) == DownloadName(b)
    ensures a == b
  {
    assert a == DownloadName(a)[..|a|];
  }

  /** The card of the selected player, nothing when none is selected. The
      overall is the corrected one: 75 for a player without stats. */
  function Card(player: Option<Player>): (r: Option<CardView>)
    ensures r.None? <==> player.None?
    ensures r.Some? ==>
      var p, c := player.value, r.value;
      && c.overall == Overall(p.stats)
      && c.role == p.role
      && c.title == DisplayName(p)
      && (c.portrait.Some? <==> p.avatar != "")
      && (c.portrait.Some? ==> c.portrait.value == p.avatar)
      && |c.lines| == |p.stats|
      && (forall i :: 0 <= i < |c.lines| ==> c.lines[i] == StatLine(Abbrev(p.stats[i].0), p.stats[i].1))
      && c.downloadName == DownloadName(p.name)
  {
    match player
    case None => None
    case Some(p) =>
      Some(CardView(
        Overall(p.stats), p.role, DisplayName(p),
        if p.avatar != "" then Some(p.avatar) else None,
        seq(|p.stats|, i requires 0 <= i < |p.stats| => StatLine(Abbrev(p.stats[i].0), p.stats[i].1)),
        DownloadName(p.name)))
  }

  /** The card's overall is the overall passed to the player's pitch token,
      and its title is the token's caption. */
  lemma CardMatchesToken(p: Player, s: PitchSettings)
    ensures Card(Some(p)).value.overall == Pitch.TokenOf(p, s).overall
    ensures Card(Some(p)).value.title == Pitch.TokenOf(p, s).caption
  {
  }

  /** Where the card's overall is defined as written, it is the corrected one. */
  lemma CardAgreesWithStats(p: Player)
    requires |p.stats| > 0
    ensures OverallAsWritten(p.stats) == Some(Card(Some(p)).value.overall)
  {
  }

  /** The stored stat names of a voted player abbreviate to the vote codes:
      the stored `def_` shows as `def`. */
  lemma StoredStatsShowVoteCodes()
    ensures forall i :: 0 <= i < |Server.StoredKeys| ==> Abbrev(Server.StoredKeys[i]) == VoteKeys[i]
  {
  }

  /** The seven stats of a new player keep distinct abbreviations. */
  lemma FormStatsAbbreviateDistinctly()
    ensures forall i, j :: 0 <= i < j < |PlayerForm.StatNames| ==>
      Abbrev(PlayerForm.StatNames[i]) != Abbrev(PlayerForm.StatNames[j])
  {
    var names := PlayerForm.StatNames;
    var codes := ["spe", "dri", "rec", "pas", "sho", "sta", "hea"];
    forall i | 0 <= i < |names| ensures Abbrev(names[i]) == codes[i] {
      assert names[i][..3] == codes[i];
    }
  }
}

=== FILE: player_form.dfy ===
/** The player form: the record being edited in the player dialog, how it is
    loaded from the player being edited or reset for a new one, and the field
    and slider edits that change it. The form holds a partial player record
    (`PlayerPatch`); what is submitted is merged over a player by the roster
    store. */
module PlayerForm {
  import opened Wrappers
  import opened JsObject
  import opened Roster

  /** The seven stats a new player's form starts with, in display order. */
  const StatNames := ["speed", "dribbling", "reception", "passing", "shooting", "stamina", "heading"]

  const StartRating := 70

  /** A stat object rating every stat of `ks` at `c`. */
  function Uniform(ks: seq<string>, c: int): (r: Ratings)
    ensures Keys(r) == ks
    ensures forall i :: 0 <= i < |r| ==> r[i].1 == c
    ensures forall k :: k in ks ==> Get(r, k) == Some(c)
  {
    FromKeys(ks, (k: string) => c)
  }

  /** The form for a new player. */
  const BlankForm := PlayerPatch(
    None, Some(""), Some(""), Some("10"), Some("MID"), Some(""),
    Some(Uniform(StatNames, StartRating)), None, None)

  /** The form for a new player: empty texts, number 10, a midfielder, every
      one of the seven stats at 70, and no id, position or votes. */
  lemma BlankFormFields()
    ensures BlankForm.id.None? && BlankForm.position.None? && BlankForm.votes.None?
    ensures BlankForm.name == Some("") && BlankForm.nickname == Some("") && BlankForm.avatar == Some("")
    ensures BlankForm.number == Some("10") && BlankForm.role == Some("MID")
    ensures BlankForm.stats.Some? && Keys(BlankForm.stats.value) == StatNames
    ensures forall k :: k in StatNames ==> Get(BlankForm.stats.value, k) == Some(70)
  {
  }

  /** What the form shows when it opens: the player being edited, verbatim,
      or the blank form when there is none. */
  function Sync(initial: Option<Player>): (f: PlayerPatch)
    ensures initial.Some? ==> forall q :: Merge(q, f) == initial.value
    ensures initial.None? ==> f == BlankForm
  {
    match initial
    case Some(p) => AsPatch(p)
    case None => BlankForm
  }

  /** The text fields of the details tab. */
  datatype Field = Name | Nickname | Number | Role | Avatar

  function FieldOf(f: PlayerPatch, field: Field): Option<string> {
    match field
    case Name => f.name
    case Nickname => f.nickname
    case Number => f.number
    case Role => f.role
    case Avatar => f.avatar
  }

  /** `handleChange(field, value)`: sets that one field and nothing else. */
  function HandleChange(f: PlayerPatch, field: Field, value: string): (r: PlayerPatch)
    ensures FieldOf(r, field) == Some(value)
    ensures forall g :: g != field ==> FieldOf(r, g) == FieldOf(f, g)
    ensures r.id == f.id && r.stats == f.stats && r.position == f.position && r.votes == f.votes
  {
    match field
    case Name => f.(name := Some(value))
    case Nickname => f.(nickname := Some(value))
    case Number => f.(number := Some(value))
    case Role => f.(role := Some(value))
    case Avatar => f.(avatar := Some(value))
  }

  /** Typing into a field twice keeps only the latest text. */
  lemma LatestChangeWins(f: PlayerPatch, field: Field, v1: string, v2: string)
    ensures HandleChange(HandleChange(f, field, v1), field, v2) == HandleChange(f, field, v2)
  {
  }

  /** Typing a field's former text back restores the form. */
  lemma ChangeUndone(f: PlayerPatch, field: Field, v: string)
    requires FieldOf(f, field).Some?
    ensures HandleChange(HandleChange(f, field, v), field, FieldOf(f, field).value) == f
  {
  }

  /** `handleStatChange(stat, value)`: the slider reports its thumbs as a list;
      the first becomes the stat's rating, every other stat is kept. A form
      without stats gets a stat object holding just this one. */
  function HandleStatChange(f: PlayerPatch, stat: string, value: seq<int>): (r: PlayerPatch)
    requires |value| > 0
    ensures r.stats.Some? && Get(r.stats.value, stat) == Some(value[0])
    ensures forall k :: k != stat ==> Get(r.stats.value, k) == Get(f.stats.GetOr([]), k)
    ensures r == f.(stats := r.stats)
  {
    f.(stats := Some(Set(f.stats.GetOr([]), stat, value[0])))
  }

  /** Every rating on the slider's scale, 1 to 99. */
  predicate OnSliderScale(stats: Ratings) {
    forall i :: 0 <= i < |stats| ==> 1 <= stats[i].1 <= 99
  }

  /** The blank form's ratings sit on the slider's scale. */
  lemma BlankFormOnScale()
    ensures OnSliderScale(BlankForm.stats.value)
  {
    UniformOnScale(StatNames, StartRating);
  }

  /** A uniform rating on the scale puts every stat on the scale. */
  lemma UniformOnScale(ks: seq<string>, c: int)
    requires 1 <= c <= 99
    ensures OnSliderScale(Uniform(ks, c))
  {
  }

  /** A slider edit keeps the form's ratings on the scale. */
  lemma StatChangeKeepsScale(f: PlayerPatch, stat: string, value: seq<int>)
    requires |value| > 0 && 1 <= value[0] <= 99
    requires OnSliderScale(f.stats.GetOr([]))
    ensures OnSliderScale(HandleStatChange(f, stat, value).stats.value)
  {
    var o := f.stats.GetOr([]);
    var r := Set(o, stat, value[0]);
    SetEntries(o, stat, value[0]);
    forall i | 0 <= i < |r| ensures 1 <= r[i].1 <= 99 {
      assert r[i] in r;
      if r[i] != (stat, value[0]) {
        var j :| 0 <= j < |o| && o[j] == r[i];
      }
    }
  }

  /** Display label per stat of the blank form. */
  const StatLabels: Obj<string> := [
    ("speed", "Velocidad"),
    ("dribbling", "Regate"),
    ("reception", "Control"),
    ("passing", "Pase"),
    ("shooting", "Tiro"),
    ("stamina", "Físico"),
    ("heading", "Cabezazo")]

  /** `labels[key] || key`: the key's label, or the key itself when the
      table has no label for it. */
  function Caption(labels: Obj<string>, key: string): (r: string)
    ensures Get(labels, key).Some? && Get(labels, key).value != "" ==> r == Get(labels, key).value
    ensures Get(labels, key).Some? && Get(labels, key).value == "" ==> r == key
    ensures Get(labels, key).None? ==> r == key
  {
    match Get(labels, key)
    case Some(l) => if l != "" then l else key
    case None => key
  }

  /** A key that no entry of the table names is captioned by itself. */
  lemma UnlabelledShowsKey(labels: Obj<string>, key: string)
    requires forall i :: 0 <= i < |labels| ==> labels[i].0 != key
    ensures Caption(labels, key) == key
  {
    assert key !in Keys(labels) by {
      forall i | 0 <= i < |labels| ensures Keys(labels)[i] != key {
        assert Keys(labels)[i] == labels[i].0;
      }
    }
  }

  /** The caption over a form stat's slider. */
  function StatLabel(key: string): (r: string)
    ensures key in Keys(StatLabels) ==> Get(StatLabels, key) == Some(r)
    ensures key !in Keys(StatLabels) ==> r == key
  {
    Caption(StatLabels, key)
  }

  /** The nine codes of a vote are not among the labelled stats, so a voted
      player's sliders are captioned with the bare codes. */
  lemma VoteKeysUnlabelled()
    ensures forall k :: k in VoteKeys ==> StatLabel(k) == k
  {
    forall k | k in VoteKeys ensures StatLabel(k) == k {
      UnlabelledShowsKey(StatLabels, k);
    }
  }
}

=== FILE: roster.dfy ===
/** The records the lineup editor keeps: players, pitch settings, club details
    and the team that holds them, plus the partial records (`{...p, ...d}`
    updates) the editor merges into them. The same shapes are stored by the
    server. */
module Roster {
  import opened Wrappers
  import opened JsObject
  import Rounding
  import Formations

  /** A pitch position in percent of the pitch width (x) and height (y). */
  datatype Position = Position(x: real, y: real)

  /** A stat object: rating per stat code, in insertion order. */
  type Ratings = Obj<int>

  datatype Player = Player(
    id: string,
    name: string,
    nickname: string,
    number: string,
    role: string,
    avatar: string,
    stats: Ratings,
    position: Position,
    votes: seq<Ratings>)

  /** A partial player record: the fields it carries overwrite a player's. */
  datatype PlayerPatch = PlayerPatch(
    id: Option<string>,
    name: Option<string>,
    nickname: Option<string>,
    number: Option<string>,
    role: Option<string>,
    avatar: Option<string>,
    stats: Option<Ratings>,
    position: Option<Position>,
    votes: Option<seq<Ratings>>)

  const NoChange := PlayerPatch(None, None, None, None, None, None, None, None, None)

  /** A player record read as a patch that carries every field. */
  function AsPatch(p: Player): PlayerPatch {
    PlayerPatch(Some(p.id), Some(p.name), Some(p.nickname), Some(p.number), Some(p.role),
                Some(p.avatar), Some(p.stats), Some(p.position), Some(p.votes))
  }

  /** `{...p, ...d}`: the fields `d` carries replace those of `p`. */
  function Merge(p: Player, d: PlayerPatch): Player {
    Player(
      d.id.GetOr(p.id), d.name.GetOr(p.name), d.nickname.GetOr(p.nickname),
      d.number.GetOr(p.number), d.role.GetOr(p.role), d.avatar.GetOr(p.avatar),
      d.stats.GetOr(p.stats), d.position.GetOr(p.position), d.votes.GetOr(p.votes))
  }

  /** A record that has nothing but an id; absent text reads as "", absent lists as empty. */
  function Blank(id: string): Player {
    Player(id, "", "", "", "", "", [], Position(0.0, 0.0), [])
  }

  /** Merging an empty patch leaves the player as it was. */
  lemma MergeNothing(p: Player)
    ensures Merge(p, NoChange) == p
  {
  }

  /** Merging a whole record yields that record, whatever it is merged over. */
  lemma MergeWhole(p: Player, q: Player)
    ensures Merge(p, AsPatch(q)) == q
  {
  }

  /** Merging the same patch twice is merging it once. */
  lemma MergeTwice(p: Player, d: PlayerPatch)
    ensures Merge(Merge(p, d), d) == Merge(p, d)
  {
  }

  function SlotPosition(s: Formations.Slot): Position {
    Position(s.x as real, s.y as real)
  }

  datatype PitchSettings = PitchSettings(
    mode: string,
    formation: string,
    color: string,
    texture: string,
    kitColor: string,
    kitNumberColor: string,
    viewMode: string)

  /** A partial settings object, as found in an imported file. */
  datatype SettingsPatch = SettingsPatch(
    mode: Option<string>,
    formation: Option<string>,
    color: Option<string>,
    texture: Option<string>,
    kitColor: Option<string>,
    kitNumberColor: Option<string>,
    viewMode: Option<string>)

  /** `{...s, ...d}` on settings. */
  function MergeSettings(s: PitchSettings, d: SettingsPatch): PitchSettings {
    PitchSettings(
      d.mode.GetOr(s.mode), d.formation.GetOr(s.formation), d.color.GetOr(s.color),
      d.texture.GetOr(s.texture), d.kitColor.GetOr(s.kitColor),
      d.kitNumberColor.GetOr(s.kitNumberColor), d.viewMode.GetOr(s.viewMode))
  }

  function SettingsAsPatch(s: PitchSettings): SettingsPatch {
    SettingsPatch(Some(s.mode), Some(s.formation), Some(s.color), Some(s.texture),
                  Some(s.kitColor), Some(s.kitNumberColor), Some(s.viewMode))
  }

  /** The settings a fresh editor and a fresh server team start from. */
  const DefaultSettings := PitchSettings("11", "4-3-3", "green", "striped", "#ef4444", "#ffffff", "2d")

  datatype ClubInfo = ClubInfo(name: string, logo: string)

  const DefaultClub := ClubInfo(
    "MI EQUIPO FC",
    "https://upload.wikimedia.org/wikipedia/commons/thumb/1/1b/FC_Bayern_M%C3%BCnchen_logo_%282017%29.svg/1200px-FC_Bayern_M%C3%BCnchen_logo_%282017%29.svg.png")

  datatype Team = Team(players: seq<Player>, settings: PitchSettings, club: ClubInfo)

  const DefaultTeam := Team([], DefaultSettings, DefaultClub)

  predicate HasId(players: seq<Player>, id: string) {
    exists i :: 0 <= i < |players| && players[i].id == id
  }

  /** The nine stat codes of a vote, as the voting page sends them and the
      server's request model names them. */
  const VoteKeys := ["rit", "tir", "pas", "reg", "def", "fis", "con", "res", "cab"]

  /** Sum over votes of their rating for `key`, a vote without the key counting 0. */
  function RatingTotal(votes: seq<Ratings>, key: string): int {
    if |votes| == 0 then 0 else Get(votes[0], key).GetOr(0) + RatingTotal(votes[1..], key)
  }

  /** When every vote rates `key` within [lo, hi], so does their total's mean. */
  lemma {:induction false} RatingTotalBounds(votes: seq<Ratings>, key: string, lo: int, hi: int)
    requires forall i :: 0 <= i < |votes| ==> Get(votes[i], key).Some? && lo <= Get(votes[i], key).value <= hi
    ensures |votes| * lo <= RatingTotal(votes, key) <= |votes| * hi
  {
    if |votes| > 0 {
      RatingTotalBounds(votes[1..], key, lo, hi);
      assert |votes| * lo == (|votes| - 1) * lo + lo;
      assert |votes| * hi == (|votes| - 1) * hi + hi;
    }
  }

  /** A player's overall rating: the mean of its stat values rounded as
      Math.round does, or 75 when it has no stats. */
  function Overall(stats: Ratings): (r: int)
    ensures |stats| == 0 ==> r == 75
    ensures |stats| > 0 ==>
      2 * |stats| * r - |stats| <= 2 * Rounding.Sum(Values(stats)) < 2 * |stats| * r + |stats|
  {
    var vs := Values(stats);
    if |vs| == 0 then 75 else Rounding.RoundHalfUp(Rounding.Sum(vs), |vs|)
  }

  /** The overall of ratings within [lo, hi] lies within [lo, hi]. */
  lemma OverallWithin(stats: Ratings, lo: int, hi: int)
    requires |stats| > 0
    requires forall i :: 0 <= i < |stats| ==> lo <= stats[i].1 <= hi
    ensures lo <= Overall(stats) <= hi
  {
    Rounding.MeanBetween(Values(stats), lo, hi);
  }

  /** The name shown for a player: its nickname, unless that is empty. */
  function DisplayName(p: Player): (r: string)
    ensures r == p.nickname || r == p.name
    ensures r == p.name <== p.nickname == ""
    ensures r == p.nickname <== p.nickname != ""
  {
    if p.nickname != "" then p.nickname else p.name
  }
}

=== FILE: rounding.dfy ===
/** Integer models of the two roundings the application uses to turn a sum of
    ratings into an average: JavaScript's `Math.round(s / n)` in the browser and
    Python's `round(s / n)` on the server. They differ on exact halves. */
module Rounding {

  function Sum(xs: seq<int>): int {
    if |xs| == 0 then 0 else xs[0] + Sum(xs[1..])
  }

  /** `Math.round(s / n)`: the integer nearest to s/n, a half rounding upward. */
  function RoundHalfUp(s: int, n: int): (r: int)
    requires n > 0
    ensures 2 * n * r - n <= 2 * s < 2 * n * r + n
  {
    var q := (2 * s + n) / (2 * n);
    assert 2 * s + n == 2 * n * q + (2 * s + n) % (2 * n);
    q
  }

  /** Python's `round(s / n)`: the integer nearest to s/n, a half rounding to
      the even neighbour. */
  function RoundHalfEven(s: int, n: int): (r: int)
    requires n > 0
    ensures 2 * n * r - n <= 2 * s <= 2 * n * r + n
    ensures 2 * s == 2 * n * r - n || 2 * s == 2 * n * r + n ==> r % 2 == 0
  {
    var q, m := s / n, s % n;
    assert s == n * q + m;
    assert 2 * n * q == 2 * (n * q);
    assert 2 * n * (q + 1) == 2 * (n * q) + 2 * n;
    if 2 * m < n then q
    else if 2 * m > n then q + 1
    else if q % 2 == 0 then q
    else q + 1
  }

  lemma MulStrictCancel(n: int, a: int, b: int)
    requires n > 0
    requires n * a < n * b
    ensures a < b
  {
  }

  lemma ModUnique(a: int, d: int, q: int, m: int)
    requires d > 0 && 0 <= m < d
    requires a == d * q + m
    ensures a / d == q && a % d == m
  {
    var q', m' := a / d, a % d;
    assert a == d * q' + m';
    assert d * (q - q') == m' - m by {
      assert d * (q - q') == d * q - d * q';
    }
    if q < q' {
      MulLeast(d, q' - q);
    } else if q > q' {
      MulLeast(d, q - q');
    }
  }

  lemma MulLeast(d: int, k: int)
    requires d > 0 && k >= 1
    ensures d * k >= d
  {
    assert d * k - d == d * (k - 1);
    assert d * (k - 1) >= 0;
  }

  /** Math.round is determined by its nearest-integer characterisation. */
  lemma RoundHalfUpUnique(s: int, n: int, r: int)
    requires n > 0
    requires 2 * n * r - n <= 2 * s < 2 * n * r + n
    ensures r == RoundHalfUp(s, n)
  {
    var q := RoundHalfUp(s, n);
    assert 2 * n * r - n <= 2 * s < 2 * n * q + n;
    assert 2 * n * q - n <= 2 * s < 2 * n * r + n;
    MulStrictCancel(2 * n, r, q + 1);
    MulStrictCancel(2 * n, q, r + 1);
  }

  /** Away from exact halves, the browser and the server round alike. */
  lemma {:induction false} RoundingsAgreeOffTies(s: int, n: int)
    requires n > 0
    requires 2 * (s % n) != n
    ensures RoundHalfUp(s, n) == RoundHalfEven(s, n)
  {
    var r := RoundHalfEven(s, n);
    if 2 * s == 2 * n * r + n {
      ModUnique(2 * s, 2 * n, r, n);
      HalfOfEvenRemainder(s, n, r);
      assert false;
    }
    if 2 * s == 2 * n * r - n {
      ModUnique(2 * s, 2 * n, r - 1, n);
      HalfOfEvenRemainder(s, n, r - 1);
      assert false;
    }
    RoundHalfUpUnique(s, n, r);
  }

  /** When 2s leaves remainder n modulo 2n, s leaves remainder n/2 modulo n. */
  lemma HalfOfEvenRemainder(s: int, n: int, q: int)
    requires n > 0
    requires 2 * s == 2 * n * q + n
    ensures 2 * (s % n) == n
  {
    assert n % 2 == 0 by {
      assert n == 2 * (s - n * q);
    }
    var h := n / 2;
    assert s == n * q + h;
    ModUnique(s, n, q, h);
  }

  /** On an exact half the two roundings part: 5/2 is 3 in the browser, 2 on the server. */
  lemma RoundingsDifferOnTies()
    ensures RoundHalfUp(5, 2) == 3 && RoundHalfEven(5, 2) == 2
  {
  }

  /** A rounded mean of values in [lo, hi] stays in [lo, hi]. */
  lemma RoundHalfUpBetween(s: int, n: int, lo: int, hi: int)
    requires n > 0
    requires n * lo <= s <= n * hi
    ensures lo <= RoundHalfUp(s, n) <= hi
  {
    var r := RoundHalfUp(s, n);
    assert 2 * n * r < 2 * n * (hi + 1);
    MulStrictCancel(2 * n, r, hi + 1);
    assert 2 * n * lo < 2 * n * (r + 1);
    MulStrictCancel(2 * n, lo, r + 1);
  }

  lemma RoundHalfEvenBetween(s: int, n: int, lo: int, hi: int)
    requires n > 0
    requires n * lo <= s <= n * hi
    ensures lo <= RoundHalfEven(s, n) <= hi
  {
    var r := RoundHalfEven(s, n);
    assert 2 * n * r < 2 * n * (hi + 1);
    MulStrictCancel(2 * n, r, hi + 1);
    assert 2 * n * lo < 2 * n * (r + 1);
    MulStrictCancel(2 * n, lo, r + 1);
  }

  lemma {:induction false} SumBounds(xs: seq<int>, lo: int, hi: int)
    requires forall i :: 0 <= i < |xs| ==> lo <= xs[i] <= hi
    ensures |xs| * lo <= Sum(xs) <= |xs| * hi
  {
    if |xs| > 0 {
      SumBounds(xs[1..], lo, hi);
      assert |xs| * lo == (|xs| - 1) * lo + lo;
      assert |xs| * hi == (|xs| - 1) * hi + hi;
    }
  }

  /** The rounded mean (Math.round) of a non-empty list lies within any bounds of its elements. */
  lemma MeanBetween(xs: seq<int>, lo: int, hi: int)
    requires |xs| > 0
    requires forall i :: 0 <= i < |xs| ==> lo <= xs[i] <= hi
    ensures lo <= RoundHalfUp(Sum(xs), |xs|) <= hi
  {
    SumBounds(xs, lo, hi);
    RoundHalfUpBetween(Sum(xs), |xs|, lo, hi);
  }
}

=== FILE: server.dfy ===
/** The persistence service: one stored team document (absent until first
    read or written), read and replaced wholesale, plus player lookup and vote
    recording. The database is modelled as the stored document itself, an
    `Option<Team>`; each request maps it to a reply and the next document. */
module Server {
  import opened Wrappers
  import opened JsObject
  import opened Roster
  import Rounding

  datatype HttpError = HttpError(status: int, detail: string)

  const TeamNotFound := HttpError(404, "Team not found")
  const PlayerNotFound := HttpError(404, "Player not found")

  /** The nine-stat request model of a vote. */
  datatype Stats = Stats(rit: int, tir: int, pas: int, reg: int, def: int, fis: int, con: int, res: int, cab: int)

  /** The key a stored vote uses for each stat: the model's field names,
      where the defence stat is the field `def_` (its wire alias is `def`). */
  const StoredKeys := ["rit", "tir", "pas", "reg", "def_", "fis", "con", "res", "cab"]

  /** The rating a body gives under `key`, the model's default 70 when the key is omitted. */
  function Field(body: Ratings, key: string): (v: int)
    ensures Get(body, key).Some? ==> v == Get(body, key).value
    ensures Get(body, key).None? ==> v == 70
  {
    Get(body, key).GetOr(70)
  }

  /** Reads a vote request body: each stat from its key, 70 when omitted; the
      defence stat from `def`, or from its field name `def_`. Other keys are ignored. */
  function ParseStats(body: Ratings): (st: Stats)
    ensures st.rit == Field(body, "rit") && st.tir == Field(body, "tir") && st.pas == Field(body, "pas")
    ensures st.reg == Field(body, "reg") && st.fis == Field(body, "fis") && st.con == Field(body, "con")
    ensures st.res == Field(body, "res") && st.cab == Field(body, "cab")
    ensures Get(body, "def").Some? ==> st.def == Get(body, "def").value
    ensures Get(body, "def").None? ==> st.def == Field(body, "def_")
    ensures body == [] ==> st == Stats(70, 70, 70, 70, 70, 70, 70, 70, 70)
  {
    Stats(Field(body, "rit"), Field(body, "tir"), Field(body, "pas"), Field(body, "reg"),
          Get(body, "def").GetOr(Field(body, "def_")),
          Field(body, "fis"), Field(body, "con"), Field(body, "res"), Field(body, "cab"))
  }

  /** `model_dump()`: the stats as a stored object, keyed by field name. */
  function Dump(st: Stats): (r: Ratings)
    ensures Keys(r) == StoredKeys
    ensures DistinctKeys(r)
  {
    var r := [("rit", st.rit), ("tir", st.tir), ("pas", st.pas), ("reg", st.reg), ("def_", st.def),
              ("fis", st.fis), ("con", st.con), ("res", st.res), ("cab", st.cab)];
    StoredKeysDistinct();
    assert Keys(r) == StoredKeys;
    DistinctByKeys(r);
    r
  }

  lemma StoredKeysDistinct()
    ensures forall i, j :: 0 <= i < j < |StoredKeys| ==> StoredKeys[i] != StoredKeys[j]
  {
  }

  /** Reading back a dumped vote gives the same stats. */
  lemma ParseDump(st: Stats)
    ensures ParseStats(Dump(st)) == st
  {
    var r := Dump(st);
    assert "def" !in Keys(r);
    assert r[0] == ("rit", st.rit) && r[1] == ("tir", st.tir) && r[2] == ("pas", st.pas);
    assert r[3] == ("reg", st.reg) && r[4] == ("def_", st.def) && r[5] == ("fis", st.fis);
    assert r[6] == ("con", st.con) && r[7] == ("res", st.res) && r[8] == ("cab", st.cab);
    GetEntry(r, 0); GetEntry(r, 1); GetEntry(r, 2);
    GetEntry(r, 3); GetEntry(r, 4); GetEntry(r, 5);
    GetEntry(r, 6); GetEntry(r, 7); GetEntry(r, 8);
  }

  /** Each stat of a stored vote is found under its stored name. */
  lemma ParseDumpGets(st: Stats)
    ensures Get(Dump(st), "rit") == Some(st.rit) && Get(Dump(st), "tir") == Some(st.tir)
    ensures Get(Dump(st), "pas") == Some(st.pas) && Get(Dump(st), "reg") == Some(st.reg)
    ensures Get(Dump(st), "def_") == Some(st.def) && Get(Dump(st), "fis") == Some(st.fis)
    ensures Get(Dump(st), "con") == Some(st.con) && Get(Dump(st), "res") == Some(st.res)
    ensures Get(Dump(st), "cab") == Some(st.cab)
  {
    var r := Dump(st);
    assert r[0] == ("rit", st.rit) && r[1] == ("tir", st.tir) && r[2] == ("pas", st.pas);
    assert r[3] == ("reg", st.reg) && r[4] == ("def_", st.def) && r[5] == ("fis", st.fis);
    assert r[6] == ("con", st.con) && r[7] == ("res", st.res) && r[8] == ("cab", st.cab);
    GetEntry(r, 0); GetEntry(r, 1); GetEntry(r, 2);
    GetEntry(r, 3); GetEntry(r, 4); GetEntry(r, 5);
    GetEntry(r, 6); GetEntry(r, 7); GetEntry(r, 8);
  }

  /** The stats as a response sends them: keyed by wire name, so the
      defence stat goes out as `def`. */
  function DumpByAlias(st: Stats): (r: Ratings)
    ensures Keys(r) == VoteKeys
    ensures DistinctKeys(r)
  {
    var r := [("rit", st.rit), ("tir", st.tir), ("pas", st.pas), ("reg", st.reg), ("def", st.def),
              ("fis", st.fis), ("con", st.con), ("res", st.res), ("cab", st.cab)];
    assert Keys(r) == VoteKeys;
    DistinctByKeys(r);
    r
  }

  /** Reading back stats sent by wire name gives the same stats. */
  lemma ParseDumpByAlias(st: Stats)
    ensures ParseStats(DumpByAlias(st)) == st
  {
    var r := DumpByAlias(st);
    assert r[0] == ("rit", st.rit) && r[1] == ("tir", st.tir) && r[2] == ("pas", st.pas);
    assert r[3] == ("reg", st.reg) && r[4] == ("def", st.def) && r[5] == ("fis", st.fis);
    assert r[6] == ("con", st.con) && r[7] == ("res", st.res) && r[8] == ("cab", st.cab);
    GetEntry(r, 0); GetEntry(r, 1); GetEntry(r, 2);
    GetEntry(r, 3); GetEntry(r, 4); GetEntry(r, 5);
    GetEntry(r, 6); GetEntry(r, 7); GetEntry(r, 8);
  }

  /** A player as the `Player` model stores it: its stats validated as `Stats`
      and dumped by field name. */
  function Stored(p: Player): (r: Player)
    ensures Keys(r.stats) == StoredKeys
    ensures ParseStats(r.stats) == ParseStats(p.stats)
    ensures r == p.(stats := r.stats)
  {
    ParseDump(ParseStats(p.stats));
    p.(stats := Dump(ParseStats(p.stats)))
  }

  /** A player as a response with the `Player` model sends it: its stats
      validated as `Stats` and sent by wire name. */
  function Response(p: Player): (r: Player)
    ensures Keys(r.stats) == VoteKeys
    ensures ParseStats(r.stats) == ParseStats(p.stats)
    ensures r == p.(stats := r.stats)
  {
    ParseDumpByAlias(ParseStats(p.stats));
    p.(stats := DumpByAlias(ParseStats(p.stats)))
  }

  /** Sending a stored player is sending the player it was stored from. */
  lemma ResponseOfStored(p: Player)
    ensures Response(Stored(p)) == Response(p)
  {
  }

  function StoredTeam(t: Team): (r: Team)
    ensures |r.players| == |t.players|
    ensures forall i :: 0 <= i < |t.players| ==> r.players[i] == Stored(t.players[i])
    ensures r.settings == t.settings && r.club == t.club
  {
    t.(players := seq(|t.players|, i requires 0 <= i < |t.players| => Stored(t.players[i])))
  }

  function ResponseTeam(t: Team): (r: Team)
    ensures |r.players| == |t.players|
    ensures forall i :: 0 <= i < |t.players| ==> r.players[i] == Response(t.players[i])
    ensures r.settings == t.settings && r.club == t.club
  {
    t.(players := seq(|t.players|, i requires 0 <= i < |t.players| => Response(t.players[i])))
  }

  /** `GET /team`: the stored team as the `Team` model sends it; on first use
      the default team, which is also stored. */
  function GetTeam(store: Option<Team>): (r: (Team, Option<Team>))
    ensures r.1 == if store.Some? then store else Some(DefaultTeam)
    ensures store.Some? ==> r.0 == ResponseTeam(store.value)
    ensures store.None? ==> r.0.players == [] && r.0.settings == DefaultSettings && r.0.club == DefaultClub
  {
    match store
    case Some(t) => (ResponseTeam(t), store)
    case None => (DefaultTeam, Some(DefaultTeam))
  }

  /** `POST /team`: the validated team replaces the stored one and is sent back. */
  function SaveTeam(store: Option<Team>, t: Team): (r: (Team, Option<Team>))
    ensures r.0 == ResponseTeam(t)
    ensures r.1 == Some(StoredTeam(t))
  {
    (ResponseTeam(t), Some(StoredTeam(t)))
  }

  /** Reading after saving returns what the save returned and stores nothing new. */
  lemma {:induction false} SaveThenGet(store: Option<Team>, t: Team)
    ensures GetTeam(SaveTeam(store, t).1) == SaveTeam(store, t)
  {
    var st := StoredTeam(t);
    forall i | 0 <= i < |t.players| ensures ResponseTeam(st).players[i] == ResponseTeam(t).players[i] {
      ResponseOfStored(t.players[i]);
    }
    assert ResponseTeam(st).players == ResponseTeam(t).players;
  }

  /** Reading twice gives the same team as reading once. */
  lemma GetTwice(store: Option<Team>)
    ensures GetTeam(GetTeam(store).1) == GetTeam(store)
  {
  }

  /** The index of the first player with the id. */
  function FirstIndex(players: seq<Player>, id: string): (r: Option<nat>)
    ensures r.None? <==> !HasId(players, id)
    ensures r.Some? ==> r.value < |players| && players[r.value].id == id
    ensures r.Some? ==> forall j :: 0 <= j < r.value ==> players[j].id != id
  {
    if |players| == 0 then None
    else if players[0].id == id then Some(0)
    else
      var r := FirstIndex(players[1..], id);
      assert forall j :: 1 <= j < |players| ==> players[1..][j - 1] == players[j];
      if r.None? then None else Some(r.value + 1)
  }

  /** `GET /player/{id}`: the first player with the id. */
  function GetPlayer(store: Option<Team>, id: string): (r: Result<Player, HttpError>)
    ensures store.None? ==> r == Failure(TeamNotFound)
    ensures store.Some? && !HasId(store.value.players, id) ==> r == Failure(PlayerNotFound)
    ensures store.Some? && HasId(store.value.players, id) ==> r.Success?
    ensures r.Success? ==>
      exists i :: 0 <= i < |store.value.players| && Response(store.value.players[i]) == r.value
        && r.value.id == id && forall j :: 0 <= j < i ==> store.value.players[j].id != id
  {
    match store
    case None => Failure(TeamNotFound)
    case Some(t) =>
      match FirstIndex(t.players, id)
      case None => Failure(PlayerNotFound)
      case Some(i) => Success(Response(t.players[i]))
  }

  /** Every stat of `stats`, in order, set to the rounded (half to even) mean
      of the votes' ratings for it, a vote without the stat counting 0. */
  function Recompute(stats: Ratings, votes: seq<Ratings>): (r: Ratings)
    requires |votes| > 0
    ensures Keys(r) == Keys(stats)
    ensures forall k :: k in Keys(stats) ==>
      Get(r, k) == Some(Rounding.RoundHalfEven(RatingTotal(votes, k), |votes|))
    ensures forall k :: k !in Keys(stats) ==> Get(r, k).None?
  {
    if |stats| == 0 then []
    else
      var k := stats[0].0;
      var rest := Recompute(stats[1..], votes);
      var r := [(k, Rounding.RoundHalfEven(RatingTotal(votes, k), |votes|))] + rest;
      assert r[1..] == rest;
      KeysCons(stats);
      KeysCons(r);
      r
  }

  datatype VoteReply = VoteReply(store: Team, newStats: Ratings)

  /** `POST /player/{id}/vote`: the first player with the id gets the vote
      appended and every stat it has recomputed over all its votes. */
  function VotePlayer(store: Option<Team>, id: string, vote: Stats): (r: Result<VoteReply, HttpError>)
    ensures store.None? ==> r == Failure(TeamNotFound)
    ensures store.Some? && !HasId(store.value.players, id) ==> r == Failure(PlayerNotFound)
    ensures store.Some? && HasId(store.value.players, id) ==> r.Success?
    ensures r.Success? ==>
      var t, t' := store.value, r.value.store;
      var i := FirstIndex(t.players, id).value;
      && |t'.players| == |t.players|
      && (forall j :: 0 <= j < |t.players| && j != i ==> t'.players[j] == t.players[j])
      && t'.players[i].votes == t.players[i].votes + [Dump(vote)]
      && t'.players[i].stats == Recompute(t.players[i].stats, t'.players[i].votes)
      && t'.players[i] == t.players[i].(votes := t'.players[i].votes, stats := t'.players[i].stats)
      && r.value.newStats == t'.players[i].stats
      && t'.settings == t.settings && t'.club == t.club
  {
    match store
    case None => Failure(TeamNotFound)
    case Some(t) =>
      match FirstIndex(t.players, id)
      case None => Failure(PlayerNotFound)
      case Some(i) =>
        var p := t.players[i];
        var votes := p.votes + [Dump(vote)];
        var stats := Recompute(p.stats, votes);
        var p' := p.(votes := votes, stats := stats);
        Success(VoteReply(t.(players := t.players[i := p']), stats))
  }

  /** When the player's earlier votes all rate a stat within [lo, hi] and so
      does the new vote, the recomputed stat lies within [lo, hi]. */
  lemma VoteStatWithin(store: Option<Team>, id: string, vote: Stats, k: string, lo: int, hi: int)
    requires VotePlayer(store, id, vote).Success?
    requires k in Keys(store.value.players[FirstIndex(store.value.players, id).value].stats)
    requires var votes := VotePlayer(store, id, vote).value.store.players[FirstIndex(store.value.players, id).value].votes;
      forall v :: 0 <= v < |votes| ==> Get(votes[v], k).Some? && lo <= Get(votes[v], k).value <= hi
    ensures Get(VotePlayer(store, id, vote).value.newStats, k).Some?
    ensures lo <= Get(VotePlayer(store, id, vote).value.newStats, k).value <= hi
  {
    var i := FirstIndex(store.value.players, id).value;
    var votes := VotePlayer(store, id, vote).value.store.players[i].votes;
    RatingTotalBounds(votes, k, lo, hi);
    Rounding.RoundHalfEvenBetween(RatingTotal(votes, k), |votes|, lo, hi);
  }

  /** A player found by lookup is the one a vote for the same id updates. */
  lemma VoteTargetsLookedUpPlayer(store: Option<Team>, id: string, vote: Stats)
    requires GetPlayer(store, id).Success?
    ensures VotePlayer(store, id, vote).Success?
    ensures var i := FirstIndex(store.value.players, id).value;
      VotePlayer(store, id, vote).value.store.players[i].votes == GetPlayer(store, id).value.votes + [Dump(vote)]
  {
  }
}

=== FILE: team_context.dfy ===
/** The editor's roster store: the team state the lineup editor shares between
    its components, and the operations that replace it. Every operation is a
    pure function from the current team to the next one. */
module TeamContext {
  import opened Wrappers
  import opened JsObject
  import opened Roster
  import Rounding
  import F = Formations

  /** The slots of the current formation in the current mode: none when the
      formation is not in that mode's table, otherwise one slot per player of
      a full team, the keeper's first. */
  function CurrentLayout(t: Team): (r: seq<F.Slot>)
    ensures r == [] <==> F.Lookup(F.TableFor(t.settings.mode), t.settings.formation).None?
    ensures r != [] ==> |r| == F.TeamSize(t.settings.mode) && r[0] == F.Keeper
    ensures r != [] ==>
      exists i :: 0 <= i < |F.TableFor(t.settings.mode)| && F.TableFor(t.settings.mode)[i] == F.Formation(t.settings.formation, r)
  {
    F.Lookup(F.TableFor(t.settings.mode), t.settings.formation).GetOr([])
  }

  /** `b` is `a` moved: every field but the position is the same. */
  predicate SameButPosition(a: Player, b: Player) {
    b == a.(position := b.position)
  }

  /** Player i takes slot i while slots last; later players stay where they are. */
  function Relayout(players: seq<Player>, layout: seq<F.Slot>): (r: seq<Player>)
    ensures |r| == |players|
    ensures forall i :: 0 <= i < |players| ==> SameButPosition(players[i], r[i])
    ensures forall i :: 0 <= i < |players| && i < |layout| ==> r[i].position == SlotPosition(layout[i])
    ensures forall i :: |layout| <= i < |players| ==> r[i] == players[i]
  {
    if |players| == 0 then []
    else if |layout| == 0 then players
    else [players[0].(position := SlotPosition(layout[0]))] + Relayout(players[1..], layout[1..])
  }

  /** `applyFormation`: an unknown name changes nothing; a known one moves the
      first players onto its slots and becomes the current formation. */
  function ApplyFormation(t: Team, name: string): (r: Team)
    ensures F.Lookup(F.TableFor(t.settings.mode), name).None? ==> r == t
    ensures F.Lookup(F.TableFor(t.settings.mode), name).Some? ==>
      var layout := F.Lookup(F.TableFor(t.settings.mode), name).value;
      && |r.players| == |t.players|
      && (forall i :: 0 <= i < |t.players| ==> SameButPosition(t.players[i], r.players[i]))
      && (forall i :: 0 <= i < |t.players| && i < |layout| ==> r.players[i].position == SlotPosition(layout[i]))
      && (forall i :: |layout| <= i < |t.players| ==> r.players[i] == t.players[i])
      && r.settings == t.settings.(formation := name)
      && r.club == t.club
  {
    match F.Lookup(F.TableFor(t.settings.mode), name)
    case None => t
    case Some(layout) => t.(players := Relayout(t.players, layout), settings := t.settings.(formation := name))
  }

  /** Applying a formation twice is applying it once. */
  lemma ApplyFormationTwice(t: Team, name: string)
    ensures ApplyFormation(ApplyFormation(t, name), name) == ApplyFormation(t, name)
  {
    var r := ApplyFormation(t, name);
    if F.Lookup(F.TableFor(t.settings.mode), name).Some? {
      var layout := F.Lookup(F.TableFor(t.settings.mode), name).value;
      var r2 := ApplyFormation(r, name);
      assert r2.players == r.players;
    }
  }

  /** After a formation of the table is applied, every player it placed stands
      on the pitch, the keeper's slot at (50, 88) going to the first player. */
  lemma ApplyFormationPlacesOnPitch(t: Team, name: string, i: int)
    requires F.Lookup(F.TableFor(t.settings.mode), name).Some?
    requires 0 <= i < |t.players|
    requires i < |F.Lookup(F.TableFor(t.settings.mode), name).value|
    ensures var p := ApplyFormation(t, name).players[i].position;
      0.0 <= p.x <= 100.0 && 0.0 <= p.y <= 100.0
    ensures i == 0 ==> ApplyFormation(t, name).players[0].position == Position(50.0, 88.0)
  {
    var table := F.TableFor(t.settings.mode);
    var layout := F.Lookup(table, name).value;
    var k :| 0 <= k < |table| && table[k] == F.Formation(name, layout);
    var size := if t.settings.mode == "11" then 11 else 7;
    if t.settings.mode == "11" { F.Formations11WellFormed(); } else { F.Formations7WellFormed(); }
    assert F.WellFormed(table[k], size);
    assert F.OnPitch(layout);
    assert 0 <= layout[i].x <= 100 && 0 <= layout[i].y <= 100;
  }

  /** `addPlayer`: appends one player made from `data`, its id `freshId`
      unless `data` carries one, standing on the next free slot of the current
      formation or at the centre spot (50, 50) when there is none, with no votes. */
  function AddPlayer(t: Team, data: PlayerPatch, freshId: string): (r: Team)
    requires !HasId(t.players, freshId)
    ensures |r.players| == |t.players| + 1
    ensures r.players[..|t.players|] == t.players
    ensures var p := r.players[|t.players|];
      && p.id == data.id.GetOr(freshId)
      && p == Merge(Blank(freshId), data).(position := p.position, votes := [])
      && (|t.players| < |CurrentLayout(t)| ==> p.position == SlotPosition(CurrentLayout(t)[|t.players|]))
      && (|t.players| >= |CurrentLayout(t)| ==> p.position == Position(50.0, 50.0))
    ensures r.settings == t.settings && r.club == t.club
  {
    var layout := CurrentLayout(t);
    var index := |t.players|;
    var pos := if index < |layout| then SlotPosition(layout[index]) else Position(50.0, 50.0);
    var p := Merge(Blank(freshId), data).(position := pos, votes := []);
    t.(players := t.players + [p])
  }

  /** Replaces every player whose id is `id` by `f` of it. */
  function UpdateWhere(players: seq<Player>, id: string, f: Player -> Player): (r: seq<Player>)
    ensures |r| == |players|
    ensures forall i :: 0 <= i < |players| && players[i].id == id ==> r[i] == f(players[i])
    ensures forall i :: 0 <= i < |players| && players[i].id != id ==> r[i] == players[i]
  {
    if |players| == 0 then []
    else [if players[0].id == id then f(players[0]) else players[0]] + UpdateWhere(players[1..], id, f)
  }

  /** `updatePlayer`: merges `d` over every player with the id; nothing else changes. */
  function UpdatePlayer(t: Team, id: string, d: PlayerPatch): (r: Team)
    ensures |r.players| == |t.players|
    ensures forall i :: 0 <= i < |t.players| && t.players[i].id == id ==> r.players[i] == Merge(t.players[i], d)
    ensures forall i :: 0 <= i < |t.players| && t.players[i].id != id ==> r.players[i] == t.players[i]
    ensures r.settings == t.settings && r.club == t.club
  {
    t.(players := UpdateWhere(t.players, id, (p: Player) => Merge(p, d)))
  }

  /** A patch that carries only a position. */
  function Moved(pos: Position): PlayerPatch {
    NoChange.(position := Some(pos))
  }

  /** `updatePlayerPosition`: every player with the id moves to `pos`; nothing else changes. */
  function UpdatePlayerPosition(t: Team, id: string, pos: Position): (r: Team)
    ensures |r.players| == |t.players|
    ensures forall i :: 0 <= i < |t.players| && t.players[i].id == id ==>
      SameButPosition(t.players[i], r.players[i]) && r.players[i].position == pos
    ensures forall i :: 0 <= i < |t.players| && t.players[i].id != id ==> r.players[i] == t.players[i]
    ensures r.settings == t.settings && r.club == t.club
  {
    t.(players := UpdateWhere(t.players, id, (p: Player) => p.(position := pos)))
  }

  /** Moving a player is updating it with a position-only patch. */
  lemma MoveIsUpdate(t: Team, id: string, pos: Position)
    ensures UpdatePlayerPosition(t, id, pos) == UpdatePlayer(t, id, Moved(pos))
  {
    var a := UpdatePlayerPosition(t, id, pos).players;
    var b := UpdatePlayer(t, id, Moved(pos)).players;
    assert |a| == |b|;
    forall i | 0 <= i < |a| ensures a[i] == b[i] {
    }
  }

  /** Updating an id nobody has changes nothing. */
  lemma UpdateMissing(t: Team, id: string, d: PlayerPatch)
    requires !HasId(t.players, id)
    ensures UpdatePlayer(t, id, d) == t
  {
    var r := UpdatePlayer(t, id, d).players;
    assert forall i :: 0 <= i < |t.players| ==> t.players[i].id != id;
    assert r == t.players;
  }

  /** Repeating an update that keeps the id is a no-op. */
  lemma UpdateTwice(t: Team, id: string, d: PlayerPatch)
    requires d.id.None? || d.id == Some(id)
    ensures UpdatePlayer(UpdatePlayer(t, id, d), id, d) == UpdatePlayer(t, id, d)
  {
    var r1 := UpdatePlayer(t, id, d).players;
    var r2 := UpdatePlayer(UpdatePlayer(t, id, d), id, d).players;
    forall i | 0 <= i < |r1| ensures r2[i] == r1[i] {
      if t.players[i].id == id {
        MergeTwice(t.players[i], d);
      }
    }
  }

  /** Keeps the players whose id is not `id`, in order. */
  function Without(players: seq<Player>, id: string): seq<Player> {
    if |players| == 0 then []
    else (if players[0].id == id then [] else [players[0]]) + Without(players[1..], id)
  }

  /** `deletePlayer`: no player with the id remains, every other player does. */
  function DeletePlayer(t: Team, id: string): (r: Team)
    ensures !HasId(r.players, id)
    ensures forall p :: p in r.players <==> p in t.players && p.id != id
    ensures |r.players| <= |t.players|
    ensures r.settings == t.settings && r.club == t.club
  {
    var r := t.(players := Without(t.players, id));
    WithoutSpec(t.players, id);
    r
  }

  lemma {:induction false} WithoutSpec(players: seq<Player>, id: string)
    ensures forall p :: p in Without(players, id) <==> p in players && p.id != id
    ensures |Without(players, id)| <= |players|
  {
    if |players| > 0 {
      WithoutSpec(players[1..], id);
      assert players == [players[0]] + players[1..];
    }
  }

  /** Deletion works piecewise, so the survivors keep their relative order. */
  lemma {:induction false} WithoutConcat(a: seq<Player>, b: seq<Player>, id: string)
    ensures Without(a + b, id) == Without(a, id) + Without(b, id)
  {
    if |a| == 0 {
      assert a + b == b;
    } else {
      WithoutConcat(a[1..], b, id);
      assert (a + b)[0] == a[0];
      assert (a + b)[1..] == a[1..] + b;
    }
  }

  /** Deleting an id nobody has changes nothing. */
  lemma {:induction false} WithoutMissing(players: seq<Player>, id: string)
    requires !HasId(players, id)
    ensures Without(players, id) == players
  {
    if |players| > 0 {
      assert players[0].id != id;
      assert !HasId(players[1..], id) by {
        forall i | 0 <= i < |players[1..]| ensures players[1..][i].id != id {
          assert players[1..][i] == players[i + 1];
        }
      }
      WithoutMissing(players[1..], id);
      assert players == [players[0]] + players[1..];
    }
  }

  /** Deleting the player just added under a fresh id restores the team. */
  lemma AddThenDelete(t: Team, data: PlayerPatch, freshId: string)
    requires !HasId(t.players, freshId)
    requires data.id.None?
    ensures DeletePlayer(AddPlayer(t, data, freshId), freshId) == t
  {
    var r := AddPlayer(t, data, freshId);
    assert r.players == t.players + [r.players[|t.players|]];
    WithoutConcat(t.players, [r.players[|t.players|]], freshId);
    WithoutMissing(t.players, freshId);
    assert [r.players[|t.players|]][1..] == [];
  }

  /** Deleting twice is deleting once. */
  lemma DeleteTwice(t: Team, id: string)
    ensures DeletePlayer(DeletePlayer(t, id), id) == DeletePlayer(t, id)
  {
    WithoutMissing(DeletePlayer(t, id).players, id);
  }

  /** The total `addVote` computes as written: `parseInt(v[key])` is NaN for a
      vote without the key, and NaN poisons the whole sum (None here). */
  function RatingTotalAsWritten(votes: seq<Ratings>, key: string): (r: Option<int>)
    ensures r.None? <==> exists i :: 0 <= i < |votes| && Get(votes[i], key).None?
  {
    if |votes| == 0 then Some(0)
    else
      var head, rest := Get(votes[0], key), RatingTotalAsWritten(votes[1..], key);
      assert rest.None? <==> exists i :: 1 <= i < |votes| && Get(votes[i], key).None? by {
        assert forall i :: 1 <= i < |votes| ==> votes[1..][i - 1] == votes[i];
      }
      if head.Some? && rest.Some? then Some(head.value + rest.value) else None
  }

  /** A vote that omits a stat an earlier vote rated leaves the total NaN:
      with votes [{tir: 60}] a new vote {rit: 80} gives rit = NaN. */
  lemma AsWrittenTotalIsNaN()
    ensures RatingTotalAsWritten([[("tir", 60)], [("rit", 80)]], "rit") == None
    ensures RatingTotal([[("tir", 60)], [("rit", 80)]], "rit") == 80
  {
    var votes := [[("tir", 60)], [("rit", 80)]];
    assert Get(votes[0], "rit").None?;
    assert votes[1..] == [[("rit", 80)]];
    assert RatingTotal(votes[1..][1..], "rit") == 0;
  }

  /** Where every vote rates the key, the written total and the corrected one agree. */
  lemma {:induction false} AsWrittenAgreesWhenComplete(votes: seq<Ratings>, key: string)
    requires forall i :: 0 <= i < |votes| ==> Get(votes[i], key).Some?
    ensures RatingTotalAsWritten(votes, key) == Some(RatingTotal(votes, key))
  {
    if |votes| > 0 {
      assert forall i :: 0 <= i < |votes[1..]| ==> votes[1..][i] == votes[i + 1];
      AsWrittenAgreesWhenComplete(votes[1..], key);
    }
  }

  /** Sets each of `keys` to the Math.round mean of the votes' ratings for it. */
  function Averaged(stats: Ratings, keys: seq<string>, votes: seq<Ratings>): (r: Ratings)
    requires |votes| > 0
    ensures forall k :: k in keys ==> Get(r, k) == Some(Rounding.RoundHalfUp(RatingTotal(votes, k), |votes|))
    ensures forall k :: k !in keys ==> Get(r, k) == Get(stats, k)
  {
    if |keys| == 0 then stats
    else
      var k := keys[|keys| - 1];
      assert forall j :: j in keys[..|keys| - 1] || j == k <==> j in keys;
      Set(Averaged(stats, keys[..|keys| - 1], votes), k, Rounding.RoundHalfUp(RatingTotal(votes, k), |votes|))
  }

  /** One player after a vote: the vote is appended to its votes, and every
      stat the vote rates becomes the Math.round mean over all its votes. */
  function Voted(p: Player, vote: Ratings): (r: Player)
    ensures r.votes == p.votes + [vote]
    ensures forall k :: k in Keys(vote) ==>
      Get(r.stats, k) == Some(Rounding.RoundHalfUp(RatingTotal(r.votes, k), |r.votes|))
    ensures forall k :: k !in Keys(vote) ==> Get(r.stats, k) == Get(p.stats, k)
    ensures r == p.(votes := r.votes, stats := r.stats)
  {
    var votes := p.votes + [vote];
    p.(votes := votes, stats := Averaged(p.stats, Keys(vote), votes))
  }

  /** `addVote`: the players with the id take the vote; nothing else changes. */
  function AddVote(t: Team, id: string, vote: Ratings): (r: Team)
    ensures |r.players| == |t.players|
    ensures forall i :: 0 <= i < |t.players| && t.players[i].id == id ==> r.players[i] == Voted(t.players[i], vote)
    ensures forall i :: 0 <= i < |t.players| && t.players[i].id != id ==> r.players[i] == t.players[i]
    ensures r.settings == t.settings && r.club == t.club
  {
    t.(players := UpdateWhere(t.players, id, (p: Player) => Voted(p, vote)))
  }

  /** Ratings that every vote gives within [lo, hi] average to a stat within [lo, hi]. */
  lemma VotedStatWithin(p: Player, vote: Ratings, k: string, lo: int, hi: int)
    requires k in Keys(vote)
    requires forall i :: 0 <= i < |p.votes| ==> Get(p.votes[i], k).Some? && lo <= Get(p.votes[i], k).value <= hi
    requires lo <= Get(vote, k).value <= hi
    ensures Get(Voted(p, vote).stats, k).Some?
    ensures lo <= Get(Voted(p, vote).stats, k).value <= hi
  {
    var votes := p.votes + [vote];
    assert forall i :: 0 <= i < |votes| ==> Get(votes[i], k).Some? && lo <= Get(votes[i], k).value <= hi by {
      forall i | 0 <= i < |votes| ensures Get(votes[i], k).Some? && lo <= Get(votes[i], k).value <= hi {
        if i < |p.votes| { assert votes[i] == p.votes[i]; } else { assert votes[i] == vote; }
      }
    }
    RatingTotalBounds(votes, k, lo, hi);
    Rounding.RoundHalfUpBetween(RatingTotal(votes, k), |votes|, lo, hi);
  }

  /** A parsed import file: unparseable text or `null` is Malformed; a part
      that is absent or falsy is None. */
  datatype ImportDoc =
    | Malformed
    | Doc(players: Option<seq<Player>>, settings: Option<SettingsPatch>, club: Option<ClubInfo>)

  /** `importTeam`: false and no change on a malformed file; otherwise true,
      with players and club replaced when present and settings merged over
      the current ones. */
  function ImportTeam(t: Team, doc: ImportDoc): (r: (bool, Team))
    ensures !r.0 <==> doc.Malformed?
    ensures !r.0 ==> r.1 == t
    ensures r.0 ==> r.1.players == doc.players.GetOr(t.players)
    ensures r.0 ==> r.1.club == doc.club.GetOr(t.club)
    ensures r.0 && doc.settings.None? ==> r.1.settings == t.settings
    ensures r.0 && doc.settings.Some? ==> r.1.settings == MergeSettings(t.settings, doc.settings.value)
  {
    match doc
    case Malformed => (false, t)
    case Doc(players, settings, club) =>
      var s := match settings case Some(d) => MergeSettings(t.settings, d) case None => t.settings;
      (true, Team(players.GetOr(t.players), s, club.GetOr(t.club)))
  }

  /** A file holding a whole team. */
  function Snapshot(t: Team): ImportDoc {
    Doc(Some(t.players), Some(SettingsAsPatch(t.settings)), Some(t.club))
  }

  /** Importing a file that holds a whole team yields exactly that team,
      whatever the editor held before. */
  lemma ImportSnapshot(before: Team, t: Team)
    ensures ImportTeam(before, Snapshot(t)) == (true, t)
  {
  }

  /** A file holding only settings: each setting it names takes the file's
      value, each setting it leaves out keeps its current value, and the
      players and club stay as they are. */
  lemma ImportKeepsUnmentionedSettings(t: Team, d: SettingsPatch)
    ensures var r := ImportTeam(t, Doc(None, Some(d), None)).1;
      && r.players == t.players && r.club == t.club
      && r.settings.mode == d.mode.GetOr(t.settings.mode)
      && r.settings.formation == d.formation.GetOr(t.settings.formation)
      && r.settings.color == d.color.GetOr(t.settings.color)
      && r.settings.texture == d.texture.GetOr(t.settings.texture)
      && r.settings.kitColor == d.kitColor.GetOr(t.settings.kitColor)
      && r.settings.kitNumberColor == d.kitNumberColor.GetOr(t.settings.kitNumberColor)
      && r.settings.viewMode == d.viewMode.GetOr(t.settings.viewMode)
    ensures var r := ImportTeam(t, Doc(None, Some(d), None)).1;
      && (d.mode.None? ==> r.settings.mode == t.settings.mode)
      && (d.formation.None? ==> r.settings.formation == t.settings.formation)
      && (d.color.None? ==> r.settings.color == t.settings.color)
      && (d.texture.None? ==> r.settings.texture == t.settings.texture)
      && (d.kitColor.None? ==> r.settings.kitColor == t.settings.kitColor)
      && (d.kitNumberColor.None? ==> r.settings.kitNumberColor == t.settings.kitNumberColor)
      && (d.viewMode.None? ==> r.settings.viewMode == t.settings.viewMode)
  {
  }
}

=== FILE: text.dfy ===
/** Character-level string helpers: splitting on and joining with a separator,
    decimal digits. */
module Text {

  /** `s.split(c)`: the pieces of `s` between occurrences of `c`. */
  function Split(s: string, c: char): (r: seq<string>)
    ensures |r| > 0
  {
    if |s| == 0 then [""]
    else if s[0] == c then [""] + Split(s[1..], c)
    else
      var rest := Split(s[1..], c);
      [[s[0]] + rest[0]] + rest[1..]
  }

  /** `xs.join(c)`: the pieces with one `c` between neighbours. */
  function Join(xs: seq<string>, c: char): string {
    if |xs| == 0 then ""
    else if |xs| == 1 then xs[0]
    else xs[0] + [c] + Join(xs[1..], c)
  }

  lemma {:induction false} SplitWithout(s: string, c: char)
    requires c !in s
    ensures Split(s, c) == [s]
  {
    if |s| > 0 {
      assert c !in s[1..];
      SplitWithout(s[1..], c);
      assert [s[0]] + s[1..] == s;
    }
  }

  lemma {:induction false} SplitAtFirst(a: string, b: string, c: char)
    requires c !in a
    ensures Split(a + [c] + b, c) == [a] + Split(b, c)
  {
    var s := a + [c] + b;
    if |a| == 0 {
      assert s[0] == c && s[1..] == b;
    } else {
      assert s[0] == a[0] && s[1..] == a[1..] + [c] + b;
      assert c !in a[1..];
      SplitAtFirst(a[1..], b, c);
      assert [a[0]] + a[1..] == a;
    }
  }

  /** Splitting undoes joining when no piece holds the separator. */
  lemma {:induction false} SplitJoin(xs: seq<string>, c: char)
    requires |xs| > 0
    requires forall i :: 0 <= i < |xs| ==> c !in xs[i]
    ensures Split(Join(xs, c), c) == xs
  {
    if |xs| == 1 {
      SplitWithout(xs[0], c);
    } else {
      SplitJoin(xs[1..], c);
      SplitAtFirst(xs[0], Join(xs[1..], c), c);
      assert [xs[0]] + xs[1..] == xs;
    }
  }

  /** Joining two lists is joining each, with one separator between them
      when both are non-empty. */
  lemma {:induction false} JoinAppend(xs: seq<string>, ys: seq<string>, c: char)
    ensures Join(xs + ys, c) ==
      if |xs| == 0 then Join(ys, c)
      else if |ys| == 0 then Join(xs, c)
      else Join(xs, c) + [c] + Join(ys, c)
  {
    if |xs| == 0 {
      assert xs + ys == ys;
    } else if |ys| == 0 {
      assert xs + ys == xs;
    } else if |xs| == 1 {
      assert (xs + ys)[1..] == ys;
    } else {
      assert (xs + ys)[1..] == xs[1..] + ys;
      JoinAppend(xs[1..], ys, c);
      var h, j := xs[0] + [c], Join(xs[1..], c);
      assert h + (j + [c] + Join(ys, c)) == (h + j) + [c] + Join(ys, c);
    }
  }

  function DigitValue(d: char): nat {
    if '0' <= d <= '9' then (d as int - '0' as int) as nat else 0
  }

  /** The value of a string of decimal digits, most significant first. */
  function ParseNat(s: string): nat {
    if |s| == 0 then 0 else ParseNat(s[..|s| - 1]) * 10 + DigitValue(s[|s| - 1])
  }
}

=== FILE: voting_page.dfy ===
/** The public voting page reached through a player's vote link: it loads the
    player from the server, offers one slider per vote stat, and posts the
    sliders' values as one vote. The server is the pure model of the `Server`
    module; a request's outcome is what that model answers. */
module VotingPage {
  import opened Wrappers
  import opened JsObject
  import opened Roster
  import Server
  import PlayerForm

  /** The rating a slider starts from: the player's stored rating for the code,
      or 70 when it has none or it is 0 (both falsy in `stats.rit || 70`). */
  function StartingVote(stats: Ratings, k: string): (r: int)
    ensures r != 0
    ensures Get(stats, k).Some? && Get(stats, k).value != 0 ==> r == Get(stats, k).value
    ensures Get(stats, k).None? || Get(stats, k).value == 0 ==> r == 70
  {
    var v := Get(stats, k).GetOr(0);
    if v != 0 then v else 70
  }

  /** One slider per code, in code order, each at its starting vote. */
  function Sliders(stats: Ratings, codes: seq<string>): (r: Ratings)
    ensures Keys(r) == codes
    ensures forall i :: 0 <= i < |r| ==> r[i] == (codes[i], StartingVote(stats, codes[i]))
    ensures forall k :: k in codes ==> Get(r, k) == Some(StartingVote(stats, k))
  {
    FromKeys(codes, (k: string) => StartingVote(stats, k))
  }

  /** The sliders after the player loads: one per vote code. */
  function InitialVotes(stats: Ratings): (r: Ratings)
    ensures Keys(r) == VoteKeys
    ensures forall i :: 0 <= i < |r| ==> r[i] == (VoteKeys[i], StartingVote(stats, VoteKeys[i])) && r[i].1 != 0
  {
    Sliders(stats, VoteKeys)
  }

  /** A player whose stored rating for a code is on the slider scale, or 0 or
      missing, starts with that slider on the scale. */
  lemma InitialVoteOnScale(stats: Ratings, k: string)
    requires k in VoteKeys
    requires Get(stats, k).Some? ==> 0 <= Get(stats, k).value <= 99
    ensures 1 <= Get(InitialVotes(stats), k).value <= 99
  {
  }

  /** A stored non-zero rating is where its slider starts. */
  lemma InitialVotesKeepStored(stats: Ratings, k: string)
    requires k in VoteKeys && k in Keys(stats)
    requires Get(stats, k).value != 0
    ensures Get(InitialVotes(stats), k) == Get(stats, k)
  {
  }

  /** Sliders over a stat object's own codes start at its ratings when none is 0. */
  lemma SlidersKeepNonZero(d: Ratings)
    requires DistinctKeys(d)
    requires forall i :: 0 <= i < |d| ==> d[i].1 != 0
    ensures Sliders(d, Keys(d)) == d
  {
    var r := Sliders(d, Keys(d));
    forall i | 0 <= i < |d| ensures r[i] == d[i] {
      GetEntry(d, i);
    }
  }

  /** A player as the server sends it, with no stat at 0, starts with every
      slider at its stored rating, the defence stat included although the
      store keeps it under `def_`. */
  lemma SlidersStartAtStoredRatings(p: Player)
    requires var sent := Server.Response(p).stats;
      forall i :: 0 <= i < |sent| ==> sent[i].1 != 0
    ensures InitialVotes(Server.Response(p).stats) == Server.Response(p).stats
    ensures Get(InitialVotes(Server.Response(p).stats), "def") == Some(Server.ParseStats(p.stats).def)
  {
    var st := Server.ParseStats(p.stats);
    Server.ParseDumpByAlias(st);
    SlidersKeepNonZero(Server.Response(p).stats);
  }

  /** `handleVoteChange(stat, value)`: the slider's first thumb becomes the
      stat's vote; the other votes stay. */
  function HandleVoteChange(votes: Ratings, stat: string, value: seq<int>): (r: Ratings)
    requires |value| > 0
    ensures Get(r, stat) == Some(value[0])
    ensures forall k :: k != stat ==> Get(r, k) == Get(votes, k)
    ensures stat in Keys(votes) ==> Keys(r) == Keys(votes)
  {
    Set(votes, stat, value[0])
  }

  /** A slider move to a value on the scale keeps every vote on the scale. */
  lemma VoteChangeKeepsScale(votes: Ratings, stat: string, value: seq<int>)
    requires |value| > 0 && 1 <= value[0] <= 99
    requires PlayerForm.OnSliderScale(votes)
    ensures PlayerForm.OnSliderScale(HandleVoteChange(votes, stat, value))
  {
    var r := HandleVoteChange(votes, stat, value);
    SetEntries(votes, stat, value[0]);
    forall i | 0 <= i < |r| ensures 1 <= r[i].1 <= 99 {
      assert r[i] in r;
      if r[i] != (stat, value[0]) {
        var j :| 0 <= j < |votes| && votes[j] == r[i];
      }
    }
  }

  /** The page's own caption table, written for the form's seven stats. */
  const VoteLabels: Obj<string> := [
    ("speed", "Velocidad"),
    ("dribbling", "Regate"),
    ("reception", "Recepción"),
    ("passing", "Pase"),
    ("shooting", "Disparo"),
    ("stamina", "Resistencia"),
    ("heading", "Cabezazo")]

  /** The caption over a vote slider. */
  function SliderCaption(key: string): (r: string)
    ensures key in Keys(VoteLabels) ==> Get(VoteLabels, key) == Some(r)
    ensures key !in Keys(VoteLabels) ==> r == key
  {
    PlayerForm.Caption(VoteLabels, key)
  }

  /** The table names none of the nine vote codes, so every slider the page
      shows (one per code) is captioned with its bare code. */
  lemma SlidersShowBareCodes()
    ensures forall k :: k in VoteKeys ==> SliderCaption(k) == k
  {
    forall k | k in VoteKeys ensures SliderCaption(k) == k {
      PlayerForm.UnlabelledShowsKey(VoteLabels, k);
    }
  }

  datatype PageState = PageState(player: Option<Player>, votes: Ratings, submitted: bool, loading: bool)

  /** The page before anything has loaded. */
  const Start := PageState(None, [], false, true)

  /** What the page shows. */
  datatype View = Spinner | NotFound | ThankYou | VoteForm

  /** The spinner while loading, then "not found" without a player, the thanks
      once a vote went through, and the sliders otherwise. */
  function ViewOf(s: PageState): (r: View)
    ensures r == Spinner <==> s.loading
    ensures r == NotFound <==> !s.loading && s.player.None?
    ensures r == ThankYou <==> !s.loading && s.player.Some? && s.submitted
    ensures r == VoteForm <==> !s.loading && s.player.Some? && !s.submitted
  {
    if s.loading then Spinner
    else if s.player.None? then NotFound
    else if s.submitted then ThankYou
    else VoteForm
  }

  /** The mount effect: without a route parameter nothing is fetched and the
      page keeps loading; otherwise the player is asked for, and a found
      player fills the sliders. Loading ends either way. */
  function Mount(s: PageState, playerId: string, store: Option<Team>): (r: PageState)
    ensures playerId == "" ==> r == s
    ensures playerId != "" ==> !r.loading && r.submitted == s.submitted
    ensures playerId != "" && Server.GetPlayer(store, playerId).Success? ==>
      r.player == Some(Server.GetPlayer(store, playerId).value)
      && r.votes == InitialVotes(r.player.value.stats)
    ensures playerId != "" && Server.GetPlayer(store, playerId).Failure? ==>
      r.player == s.player && r.votes == s.votes
  {
    if playerId == "" then s
    else
      match Server.GetPlayer(store, playerId)
      case Success(p) => s.(player := Some(p), votes := InitialVotes(p.stats), loading := false)
      case Failure(_) => s.(loading := false)
  }

  /** Opened on a vote link, the page offers the sliders exactly when the
      server has a team with a player of that id, and says "not found" otherwise. */
  lemma MountedView(playerId: string, store: Option<Team>)
    requires playerId != ""
    ensures ViewOf(Mount(Start, playerId, store)) ==
      if store.Some? && HasId(store.value.players, playerId) then VoteForm else NotFound
  {
  }

  /** Without a player id the spinner never goes away. */
  lemma NoIdKeepsSpinning(store: Option<Team>)
    ensures ViewOf(Mount(Start, "", store)) == Spinner
  {
  }

  /** `handleSubmit`: posts the sliders as a vote; the thanks show only when
      the server accepted it, and only then does the stored team change. */
  function Submit(s: PageState, playerId: string, store: Option<Team>): (r: (PageState, Option<Team>))
    ensures var reply := Server.VotePlayer(store, playerId, Server.ParseStats(s.votes));
      && (reply.Success? ==> r == (s.(submitted := true), Some(reply.value.store)))
      && (reply.Failure? ==> r == (s, store))
    ensures r.0.submitted <==> s.submitted || (store.Some? && HasId(store.value.players, playerId))
  {
    match Server.VotePlayer(store, playerId, Server.ParseStats(s.votes))
    case Success(reply) => (s.(submitted := true), Some(reply.store))
    case Failure(_) => (s, store)
  }

  /** The sliders as they reach the store: with one slider per vote code, the
      vote the server records holds each slider's value under the code's
      stored name (`def` becoming `def_`). */
  lemma RecordedVoteIsSliders(votes: Ratings)
    requires forall k :: k in VoteKeys ==> Get(votes, k).Some?
    ensures var d := Server.Dump(Server.ParseStats(votes));
      && Get(d, "rit") == Get(votes, "rit") && Get(d, "tir") == Get(votes, "tir")
      && Get(d, "pas") == Get(votes, "pas") && Get(d, "reg") == Get(votes, "reg")
      && Get(d, "def_") == Get(votes, "def") && Get(d, "fis") == Get(votes, "fis")
      && Get(d, "con") == Get(votes, "con") && Get(d, "res") == Get(votes, "res")
      && Get(d, "cab") == Get(votes, "cab")
  {
    assert Get(votes, VoteKeys[0]).Some? && Get(votes, VoteKeys[1]).Some? && Get(votes, VoteKeys[2]).Some?;
    assert Get(votes, VoteKeys[3]).Some? && Get(votes, VoteKeys[4]).Some? && Get(votes, VoteKeys[5]).Some?;
    assert Get(votes, VoteKeys[6]).Some? && Get(votes, VoteKeys[7]).Some? && Get(votes, VoteKeys[8]).Some?;
    SlidersRead(votes);
    Server.ParseDumpGets(Server.ParseStats(votes));
  }

  /** With one slider per code, the request model reads each stat from its slider. */
  lemma SlidersRead(votes: Ratings)
    requires Get(votes, "rit").Some? && Get(votes, "tir").Some? && Get(votes, "pas").Some?
    requires Get(votes, "reg").Some? && Get(votes, "def").Some? && Get(votes, "fis").Some?
    requires Get(votes, "con").Some? && Get(votes, "res").Some? && Get(votes, "cab").Some?
    ensures Server.ParseStats(votes) == Server.Stats(
      Get(votes, "rit").value, Get(votes, "tir").value, Get(votes, "pas").value,
      Get(votes, "reg").value, Get(votes, "def").value, Get(votes, "fis").value,
      Get(votes, "con").value, Get(votes, "res").value, Get(votes, "cab").value)
  {
  }

  /** Moving sliders keeps one slider per vote code. */
  lemma SliderKeepsCodes(votes: Ratings, stat: string, value: seq<int>)
    requires Keys(votes) == VoteKeys && stat in VoteKeys && |value| > 0
    ensures Keys(HandleVoteChange(votes, stat, value)) == VoteKeys
  {
  }
}

=== FILE: wrappers.dfy ===
/** Failure-carrying values shared by every module of the lineup editor model. */
module Wrappers {

  /** A value that may be absent: JavaScript's `undefined`/falsy field, Python's `None`. */
  datatype Option<+T> = None | Some(value: T) {

    /** The carried value, or `default` when absent (JavaScript's `x || default`). */
    function GetOr(default: T): T {
      match this
      case Some(v) => v
      case None => default
    }
  }

  /** The outcome of an operation that can fail with an error value. */
  datatype Result<+R, +E> = Success(value: R) | Failure(error: E)
}
